=== FILE: README.md ===
# Guardrails and MCP health: a Dafny model

This project models the validation and health-reporting layer of The Black
Street Journal, a pipeline of agents that research a topic and draft a script
about it. Two parts are modelled.

- **Guardrails** (`src/tools/guardrails.py`): a validator for incoming task
  requests and validators for the research agent's and the script agent's
  free-text output. Each returns a `ValidationResult` whose errors and
  warnings build up in a fixed order, and which is valid exactly when there
  are no errors. A formatter renders the result as a text report.
- **MCP health** (`src/tools/mcp_health.py`): probes for the hosted Exa
  search server and for the Notion server over stdio and over HTTP. These
  results are then aggregated. From them come a text report with a
  healthy/configured tally and a list of remediation hints.

Modules, one per file:

| file | module | contents |
|---|---|---|
| `wrappers.dfy` | `Wrappers` | `Option` and `Result` |
| `text.dfy` | `Text` | the Python string operations used: `lower()`, `split()`, `in`, `join`, `str(int)` |
| `lists.dfy` | `Lists` | order-preserving selection: subsequences, conditional appends, filtering |
| `patterns.dfy` | `Patterns` | the four regular expressions, written out as the scans `re.findall` and `re.match` perform |
| `guardrails.dfy` | `Guardrails` | the validators and the validation report |
| `mcp_health.dfy` | `McpHealth` | status and record types, the probes, aggregation, the health report and the recommendations |

Each regular expression is a scanning function. That function is proved
against an independent reference count:
- `[S\d+]` matches are counted at every start position, because they cannot overlap.
- Dates can overlap. The non-overlapping `findall` count is proved to be at most the number of start positions. A concrete string shows that it can be smaller.
- The MULTILINE `^\d+\.` scan equals the number of lines that start with digits and a dot.

The greedy time-window match is proved equivalent to "the text can be cut into
date, spaces, `to`, spaces, date, then anything".

Where the code and its prose description disagree, the model follows the code:

- The time window is accepted when it *starts* with a date range (`re.match`
  anchors only at the start). The separator is `\s+to\s+`, so any run of white
  space works, not only a literal `" to "`.
- A truthy `time_window` that is not a string makes `re.match` raise
  `TypeError`. It is then no longer a warning: the validator raises. The model
  returns this as `Failure(TypeError)`.
- `must_hits` and `red_lines` are rejected only when present and not a list.
  The element types are never examined.
- The single affirmative recommendation appears when no check contributes a
  hint. That is not the same as "every probe is healthy": a not-configured
  server whose name is neither `exa-hosted` nor contains `notion` contributes
  nothing.
- An unconfigured `notion-http` server gets the hint to set `NOTION_TOKEN`,
  although that server is enabled by `NOTION_MCP_URL`: the not-configured
  test only asks whether the name contains `notion`.

## Model

| member | source | states |
|---|---|---|
| Guardrails.TaskErrors | src/tools/guardrails.py:43-60 | each of the three request errors is present iff its condition holds, in the order topic, must_hits, red_lines |
| Guardrails.ValidateTaskInput | src/tools/guardrails.py:30-66 | raises a `TypeError` (Failure) iff the time window is truthy but not text. Otherwise the result is consistent. "Topic is required" iff the topic is missing or falsy. Each list error iff that value is present and not a list. Errors follow the fixed order. The warnings are a subsequence of the single format warning, and it is present iff a non-empty time window does not start with a date range |
| Guardrails.TimeWindowOnlyWarns | src/tools/guardrails.py:48-51 | setting or removing a textual time window never changes the errors or the verdict |
| Guardrails.MissingMustHits | src/tools/guardrails.py:100-106 | an entry is reported missing iff none of its keywords occurs in the lower-cased output; order is kept, and a repeated entry is reported as often as it occurs |
| Guardrails.Violations | src/tools/guardrails.py:112-119 | an entry is flagged iff one of its lower-cased keywords occurs in the lower-cased output; order is kept, and a repeated entry is reported as often as it occurs |
| Guardrails.CheckMustHits | src/tools/guardrails.py:100 | the guard on an absent or empty `must_hits` gives the same result as running the rule over no entries |
| Guardrails.CheckRedLines | src/tools/guardrails.py:112 | the guard on an absent or empty `red_lines` gives the same result as running the rule over no entries |
| Guardrails.ViolationsIffSomeFlagged | src/tools/guardrails.py:118-122 | the violations list is non-empty iff some red line is flagged |
| Guardrails.MustHitAndRedLineAgree | src/tools/guardrails.py:103-119 | splitting then lower-casing (must-hits) and lower-casing then splitting (red lines) are the same keyword test |
| Guardrails.KeywordlessEntry | src/tools/guardrails.py:103-119 | an empty or blank entry is always a missing must-hit and never a flagged red line |
| Guardrails.AbsentPhrases | src/tools/guardrails.py:154-158 | a required section is reported iff it does not occur, as often as it is listed; order is kept |
| Guardrails.PresentPhrases | src/tools/guardrails.py:187-191 | a speculative phrase is reported iff it occurs, as often as it is listed; order is kept |
| Guardrails.ResearchMessagesDistinct | src/tools/guardrails.py:85-127 | the four research error messages are pairwise different |
| Guardrails.ResearchErrors | src/tools/guardrails.py:84-127 | each research error is present iff its rule fires, in rule order; a source shortage is always the last error |
| Guardrails.ResearchWarnings | src/tools/guardrails.py:87-97 | citation and date warnings are present iff fewer than three matches were found, in that order |
| Guardrails.ValidateResearchOutput | src/tools/guardrails.py:69-133 | consistent; the register error iff the lower-cased output lacks "sources register"; the must-hit and red-line errors iff something is missing or flagged; fewer than five numbered lines make the result invalid and put the shortage error last; errors and warnings in rule order |
| Guardrails.ScriptMessagesDistinct | src/tools/guardrails.py:160-194 | the five script warnings are pairwise different |
| Guardrails.ScriptWarnings | src/tools/guardrails.py:159-194 | each script warning is present iff its rule fires, in rule order |
| Guardrails.ValidateScriptOutput | src/tools/guardrails.py:136-200 | consistent; at most one error, and the result is invalid iff some red line is flagged; the section, word-count, citation and speculation warnings iff their rules fire; "too short" and "too long" never occur together; warnings in rule order |
| Guardrails.SameRedLinePolicy | src/tools/guardrails.py:176-184 | the script validator flags red lines by the same rule as the research validator (lines 111-122), so both report a red-line error for the same output and red lines |
| Guardrails.Block | src/tools/guardrails.py:217-225 | a block is empty for no items, otherwise its heading followed by one bullet per item in order |
| Guardrails.ReportLines | src/tools/guardrails.py:213-228 | the title comes first; the status line reads PASSED iff valid and FAILED iff not; the line count is that of the title, status, both blocks and the closing line |
| Guardrails.ReportSections | src/tools/guardrails.py:217-228 | after the status line come the ERRORS block (its heading and one bullet per error, or nothing), then the WARNINGS block built the same way, and for a clean pass "All checks passed!" is the last line |
| Guardrails.ReportHeadings | src/tools/guardrails.py:217-228 | each heading and the closing line is present exactly when its block is |
| Guardrails.InBlock | src/tools/guardrails.py:217-225 | a line not starting with a space occurs in a block only as its heading |
| Guardrails.FormatValidationReport | src/tools/guardrails.py:214-230 | the joined report starts with the title line and, for a clean pass, ends with the all-passed line |
| Patterns.CitationLength | src/tools/guardrails.py:88 | a positive match length covers `[`, `S`, one or more digits and `]` |
| Patterns.CitationFound | src/tools/guardrails.py:88 | conversely, a `[S<digits>]` marker at the start is matched with its full length |
| Patterns.CountCitations | src/tools/guardrails.py:89 | each citation found takes at least four characters of its own |
| Patterns.CitationStep | src/tools/guardrails.py:88 | a citation marker holds no second `[`, so counting start positions jumps straight past it |
| Patterns.CitationScanCountsAllStarts | src/tools/guardrails.py:88-89 | the `findall` count of citations equals the number of positions where a citation starts |
| Patterns.DateScanAtMostStarts | src/tools/guardrails.py:94-95 | the non-overlapping date count never exceeds the number of date start positions |
| Patterns.DateScanAtLeastHalfStarts | src/tools/guardrails.py:94-95 | a date that is present is counted: the number of date start positions is at most twice the findall count, since each match covers at most two starts |
| Patterns.OneStartWithinDate | src/tools/guardrails.py:95 | within a matched date at most one other date starts, so skipping its ten characters loses at most one start |
| Patterns.CountDates | src/tools/guardrails.py:95 | each counted date takes ten characters of its own |
| Patterns.OverlappingDatesCountedOnce | src/tools/guardrails.py:94-95 | when a second date starts on the last two digits of a first, both are start positions but the scan takes the first, resumes ten characters later and never reports the second |
| Patterns.OverlapExample | src/tools/guardrails.py:94-95 | in "1234-56-7890-12-34" dates start at positions 0 and 8, and `findall` reports one date |
| Patterns.ScanLineStep | src/tools/guardrails.py:125 | at a line start the MULTILINE scan counts the first line iff it is numbered, then starts afresh after its newline |
| Patterns.NumberedFound | src/tools/guardrails.py:125 | digits followed by a dot at the start of a line are matched with their full length |
| Patterns.NumberedScanCountsLines | src/tools/guardrails.py:125 | the MULTILINE scan counts exactly the lines (the parts between newlines) that start with digits and a dot |
| Patterns.CountNumberedLines | src/tools/guardrails.py:125 | the findall count equals the number of lines that start with digits and a dot |
| Patterns.TimeWindowIffWindowAt | src/tools/guardrails.py:50 | the greedy matcher succeeds iff the text splits as date, white space, "to", white space, date, anything |
| Patterns.MatchesTimeWindow | src/tools/guardrails.py:49 | the time-window match succeeds iff the text starts with a date, white space, "to", white space and a date |
| Patterns.TimeWindowIgnoresSuffix | src/tools/guardrails.py:50 | trailing text never turns a matching time window into a non-matching one |
| Text.SplitJoinRoundTrip | src/tools/guardrails.py:163 | splitting a space-joined list of words gives the words back |
| Text.SplitLower | src/tools/guardrails.py:103-119 | lower-casing before or after splitting gives the same keywords |
| Text.ContainsIffOccurs | src/tools/guardrails.py:84 | the `in` test, used here and for the keyword, section and phrase checks, holds iff the substring occurs at some position |
| Text.NatToString | src/tools/guardrails.py:127 | the rendered count is canonical decimal and reads back as the number |
| Lists.Select | src/tools/guardrails.py:43-60 | a run of conditional appends yields a subsequence of the fixed order in which each distinct item appears iff its condition holds |
| Lists.FilterAppend | src/tools/guardrails.py:103-106 | filtering distributes over concatenation, so input order is kept |
| Lists.FilterCounts | src/tools/guardrails.py:103-106 | the filtering loop keeps every occurrence of a kept entry and none of a dropped one |
| McpHealth.CheckExaHealth | src/tools/mcp_health.py:42-74 | named "exa-hosted"; NOT_CONFIGURED with "EXA_API_KEY not set" iff the key is absent or empty; DEGRADED iff a key lacks both known prefixes; otherwise HEALTHY with two tools; never FAILED |
| McpHealth.CheckNotionStdioHealth | src/tools/mcp_health.py:93-137 | named "notion-stdio"; NOT_CONFIGURED iff the token is absent or empty; otherwise HEALTHY with the listed tool count on success and FAILED with the exception message on failure |
| McpHealth.HttpHeaders | src/tools/mcp_health.py:166 | an Authorization header with a Bearer token is sent iff an auth token is set |
| McpHealth.CheckNotionHttpHealth | src/tools/mcp_health.py:147-196 | named "notion-http"; NOT_CONFIGURED iff the URL is absent or empty; the server is contacted with the headers built from the auth token; HEALTHY iff listing succeeds and disconnect does not raise, where a missing disconnect method is ignored; otherwise FAILED with the message |
| McpHealth.UnconfiguredProbesIgnoreConnection | src/tools/mcp_health.py:94-157 | without the credential, what the connection would do cannot change the record |
| McpHealth.CollectChecks | src/tools/mcp_health.py:213-226 | same length and order as the outcomes; records pass through; an exception becomes a FAILED "unknown" record with its message and no metrics |
| McpHealth.CollectChecksAppend | src/tools/mcp_health.py:214-224 | collecting distributes over concatenation |
| McpHealth.RunAllHealthChecks | src/tools/mcp_health.py:206-226 | exactly the three probes' records, in the order exa-hosted, notion-stdio, notion-http, each run on its own variables and connection outcome; all well shaped; each NOT_CONFIGURED iff its variable is unset |
| McpHealth.HealthyCount | src/tools/mcp_health.py:241 | the number of HEALTHY checks, as the number kept by filtering on that status; at most the number of checks, and zero iff no check is healthy |
| McpHealth.ConfiguredCount | src/tools/mcp_health.py:242 | the number of checks that are not NOT_CONFIGURED, as the number kept by filtering on that status; at most the number of checks, and zero iff every check is NOT_CONFIGURED |
| McpHealth.HealthyWithinConfigured | src/tools/mcp_health.py:241-242 | healthy count <= configured count <= number of checks |
| McpHealth.CheckBlock | src/tools/mcp_health.py:247-269 | one emoji-and-name line, a closing blank line and indented lines between. NOT_CONFIGURED gives one "Not configured (msg)" line. HEALTHY gives "Healthy", a response-time line when the time is non-zero and a tools line when known. Other statuses give the status value and an Error line for a non-empty message |
| McpHealth.HealthyDetails | src/tools/mcp_health.py:258-263 | a healthy check shows "Healthy", then a response-time line iff a non-zero time is known, then a tools line iff the count is known |
| McpHealth.ProblemDetails | src/tools/mcp_health.py:264-267 | a degraded or failed check shows its status value, then an Error line iff its message is non-empty |
| McpHealth.BlockShape | src/tools/mcp_health.py:254-269 | a block has exactly one title line and one blank line |
| McpHealth.OneBlockPerCheck | src/tools/mcp_health.py:246-269 | the report body has exactly one title line and one blank line per check |
| McpHealth.HealthReportLines | src/tools/mcp_health.py:239-269 | the header, then the tally of healthy and configured checks, then the blocks in order; the body holds one title line per check, and the tally never shows more healthy than configured servers |
| McpHealth.FormatHealthReport | src/tools/mcp_health.py:239-271 | the report starts with the header line |
| McpHealth.EmptyHealthReport | src/tools/mcp_health.py:239-271 | no checks give the header and the "0/0" tally only |
| McpHealth.Recommendation | src/tools/mcp_health.py:286-302 | a hint is given iff the check is DEGRADED, FAILED, or NOT_CONFIGURED for exa-hosted or a Notion server; the text is fixed per branch: the EXA_API_KEY hint, the NOTION_TOKEN hint, the Node.js hint for notion-stdio, the NOTION_MCP_URL hint for notion-http, "Investigate <name> …" for another failure and "Review <name> …" for a degraded server; no hint equals the affirmative line |
| McpHealth.Hints | src/tools/mcp_health.py:286-302 | one hint per check that needs attention, and each hint is the recommendation of one of the checks |
| McpHealth.HintsSingle | src/tools/mcp_health.py:286-302 | a single check contributes exactly its own recommendation, or nothing; with HintsAppend this fixes the hints of every list |
| McpHealth.HintsAppend | src/tools/mcp_health.py:286-302 | hints follow input order |
| McpHealth.GetMcpRecommendations | src/tools/mcp_health.py:284-307 | never empty; exactly the affirmative line iff no check needs attention; otherwise exactly the per-check hints, one per such check, in input order |
| McpHealth.AllHealthyRecommendation | src/tools/mcp_health.py:304-305 | all-healthy checks give only the affirmative line |
| McpHealth.EmptyEnvironment | src/tools/mcp_health.py:284-307 | with no variables set, all three records are NOT_CONFIGURED, the tally is 0/0 and the recommendations are exactly the EXA_API_KEY hint followed by the NOTION_TOKEN hint twice, notion-http included |

## Left out

- I/O, concurrency and time are not modelled. These include `os.getenv`, `asyncio.gather`, starting and connecting to MCP servers, listing tools, disconnecting, and `time.time()`. The environment is a record. Connection outcomes are `Result` values; the HTTP server is a function from the request headers to such an outcome. Elapsed times are parameters.
- The `:.1f` formatting of a response time is a function parameter of the health report, because floating-point rendering is not modelled.
- `str.lower()`, `str.split()` and the regex classes `\d` and `\s` are modelled on ASCII only: ASCII letters, ASCII digits and the ASCII white-space characters Python recognises. Non-ASCII case mappings, digits and spaces are not modelled.
- Emoji glyphs are fixed code-point strings. Their rendering is not modelled.
- The `except` branch of `check_exa_mcp_health` cannot be reached, because `startswith` on a string does not raise. It has no counterpart in the model.
- The message of the `TypeError` raised for a non-text time window is not modelled, only its type. The text depends on the object (bytes are refused with a different message) and on the Python version.
- Exceptions derived from `BaseException` but not `Exception`, such as cancellation, are not modelled. Every exception is treated as an `Exception`.
- `TaskRequirements.topic`, `geo_focus` and `time_window` are carried but not read by the output validators, as in guardrails.py.
- The agent construction, prompt text, file tools and entry point are not part of this model. They hold no logic beyond calls into an external agent runtime and the file system.
- Guardrails.CheckMustHits, Guardrails.CheckRedLines and Guardrails.ValidateScriptOutput: take `must_hits` and `red_lines` as lists of strings, the declared `List[str]`. In guardrails.py a list of other values passes `validate_task_input`, and a non-string entry then raises `AttributeError` at `.split()` or `.lower()` (guardrails.py:105, :117, :179). A truthy string in place of a list would be iterated character by character. Neither error path is modelled.
- Guardrails.FormatValidationReport: states only the first and last lines of the joined text; the line-by-line content is stated on Guardrails.ReportLines, Guardrails.ReportSections and Guardrails.ReportHeadings.
- McpHealth.FormatHealthReport: states only the opening of the joined text; the empty-list case is McpHealth.EmptyHealthReport and the line-by-line content is stated on McpHealth.HealthReportLines and McpHealth.CheckBlock.

=== FILE: guardrails.dfy ===
/**
 The guardrails that gate the research and script agents: an input validator
 for task requests, two output validators for the agents' free text, and the
 report that renders a verdict.

 Once it returns, every validator has evaluated all of its rules (no rule
 skips the later ones), appended hard failures to `errors` and advisory ones
 to `warnings` in a fixed order, and reports `isValid` exactly when no error
 fired. The one way out before that is the exception the input validator's
 date-range match raises on a time window that is not text.
 */
module Guardrails {
  import opened Wrappers
  import opened Text
  import opened Lists
  import opened Patterns

  /** The outcome of a validation: a verdict, hard errors and soft warnings. */
  datatype ValidationResult = ValidationResult(isValid: bool, errors: seq<string>, warnings: seq<string>)

  /** The invariant every validator establishes: valid exactly when error-free. */
  predicate Consistent(r: ValidationResult) {
    r.isValid == (|r.errors| == 0)
  }

  /** The result a validator returns once its error and warning lists are built. */
  function Verdict(errors: seq<string>, warnings: seq<string>): (r: ValidationResult)
    ensures Consistent(r) && r.errors == errors && r.warnings == warnings
  {
    ValidationResult(|errors| == 0, errors, warnings)
  }

  /** The task parameters the output validators check against. */
  datatype TaskRequirements = TaskRequirements(
    topic: string,
    geoFocus: Option<string>,
    timeWindow: Option<string>,
    mustHits: Option<seq<string>>,
    redLines: Option<seq<string>>)

  /** The entries of an optional list, none when it is absent. */
  function Entries(xs: Option<seq<string>>): seq<string> {
    match xs
    case None => []
    case Some(v) => v
  }

  // ---------------------------------------------------------------------
  // Input validation

  /** A loosely typed payload value: the Python objects a task dictionary
      may hold. `Other` stands for any further object (a tuple, a dict, a
      float, ...) and records only its truth value. */
  datatype Value =
    | Null
    | Bool(b: bool)
    | Int(i: int)
    | Str(s: string)
    | List(items: seq<Value>)
    | Other(truthy: bool)

  /** Python truthiness. */
  predicate Truthy(v: Value) {
    match v
    case Null => false
    case Bool(b) => b
    case Int(i) => i != 0
    case Str(s) => |s| > 0
    case List(items) => |items| > 0
    case Other(t) => t
  }

  /** `task_data.get(key)`: a missing key reads as `None`. */
  function Get(taskData: map<string, Value>, key: string): Value {
    if key in taskData then taskData[key] else Null
  }

  const TopicRequired := "Topic is required"
  const TimeWindowFormat := "Time window should be in format 'YYYY-MM-DD to YYYY-MM-DD'"
  const MustHitsNotList := "must_hits must be a list"
  const RedLinesNotList := "red_lines must be a list"
  /** The exception that escapes a validator: `re.match` raises `TypeError`
      when handed anything but text. Its message depends on the object and
      the Python version, so only its type is kept. */
  datatype Raised = TypeError

  /** The list check: present (not `None`) and not a list. Element types are
      never looked at. */
  predicate PresentButNotList(v: Value) {
    !v.Null? && !v.List?
  }

  /** A truthy time window that is not text makes `re.match` raise. */
  predicate TimeWindowRaises(taskData: map<string, Value>) {
    Truthy(Get(taskData, "time_window")) && !Get(taskData, "time_window").Str?
  }

  /** A non-empty time window that does not start with a date range. */
  predicate TimeWindowMalformed(taskData: map<string, Value>) {
    var tw := Get(taskData, "time_window");
    tw.Str? && |tw.s| > 0 && !MatchesTimeWindow(tw.s)
  }

  /** The input validator's errors, in the order the rules run. */
  function TaskErrors(topicMissing: bool, badMustHits: bool, badRedLines: bool): (errors: seq<string>)
    ensures TopicRequired in errors <==> topicMissing
    ensures MustHitsNotList in errors <==> badMustHits
    ensures RedLinesNotList in errors <==> badRedLines
    ensures IsSubsequence(errors, [TopicRequired, MustHitsNotList, RedLinesNotList])
  {
    var order := [TopicRequired, MustHitsNotList, RedLinesNotList];
    assert Distinct(order);
    Select([topicMissing, badMustHits, badRedLines], order)
  }

  /** `validate_task_input`. The exception `re.match` raises on a truthy
      non-text time window escapes the validator and is returned as a
      `Failure`. */
  function ValidateTaskInput(taskData: map<string, Value>): (r: Result<ValidationResult, Raised>)
    ensures r.Failure? <==> TimeWindowRaises(taskData)
    ensures r.Success? ==> Consistent(r.value)
    ensures r.Success? ==> (TopicRequired in r.value.errors <==> !Truthy(Get(taskData, "topic")))
    ensures r.Success? ==> (MustHitsNotList in r.value.errors <==> PresentButNotList(Get(taskData, "must_hits")))
    ensures r.Success? ==> (RedLinesNotList in r.value.errors <==> PresentButNotList(Get(taskData, "red_lines")))
    ensures r.Success? ==> IsSubsequence(r.value.errors, [TopicRequired, MustHitsNotList, RedLinesNotList])
    // a corollary of the subsequence clause below, stated for the reader
    ensures r.Success? ==> |r.value.warnings| <= 1
    ensures r.Success? ==> (TimeWindowFormat in r.value.warnings <==> TimeWindowMalformed(taskData))
    ensures r.Success? ==> IsSubsequence(r.value.warnings, [TimeWindowFormat])
  {
    var timeWindow := Get(taskData, "time_window");
    if Truthy(timeWindow) && !timeWindow.Str? then
      Failure(TypeError)
    else
      var errors := TaskErrors(
        !Truthy(Get(taskData, "topic")),
        PresentButNotList(Get(taskData, "must_hits")),
        PresentButNotList(Get(taskData, "red_lines")));
      var warnings := When(Truthy(timeWindow) && !MatchesTimeWindow(timeWindow.s), TimeWindowFormat);
      Success(Verdict(errors, warnings))
  }

  /** A time window on its own never makes a request invalid: replacing it
      with any text, or removing it, leaves the errors and the verdict as
      they were. */
  lemma TimeWindowOnlyWarns(taskData: map<string, Value>, window: string)
    ensures ValidateTaskInput(taskData["time_window" := Str(window)]).Success?
    ensures ValidateTaskInput(taskData - {"time_window"}).Success?
    ensures ValidateTaskInput(taskData["time_window" := Str(window)]).value.errors
         == ValidateTaskInput(taskData - {"time_window"}).value.errors
    ensures ValidateTaskInput(taskData["time_window" := Str(window)]).value.isValid
         == ValidateTaskInput(taskData - {"time_window"}).value.isValid
  {
  }

  // ---------------------------------------------------------------------
  // Keyword policies shared by the output validators

  /** Some keyword occurs in `text`. */
  predicate AnyOccurs(keywords: seq<string>, text: string) {
    exists i :: 0 <= i < |keywords| && Contains(text, keywords[i])
  }

  /** A must-hit is covered when one of its keywords, split on white space
      and then lower-cased, occurs in the lower-cased output. */
  predicate MustHitCovered(hit: string, outputLower: string) {
    AnyOccurs(LowerAll(Split(hit)), outputLower)
  }

  /** A red line is flagged when one of its keywords, lower-cased and then
      split on white space, occurs in the lower-cased output. */
  predicate RedLineFlagged(redLine: string, outputLower: string) {
    AnyOccurs(Split(Lower(redLine)), outputLower)
  }

  /** The must-hits none of whose keywords the output mentions, in input order. */
  function MissingMustHits(hits: seq<string>, outputLower: string): (missing: seq<string>)
    ensures IsSubsequence(missing, hits)
    ensures forall i :: 0 <= i < |missing| ==> !MustHitCovered(missing[i], outputLower)
    ensures forall i :: 0 <= i < |hits| && !MustHitCovered(hits[i], outputLower) ==> hits[i] in missing
    ensures forall x :: multiset(missing)[x] == if !MustHitCovered(x, outputLower) then multiset(hits)[x] else 0
  {
    FilterCounts(hits, hit => !MustHitCovered(hit, outputLower));
    Filter(hits, hit => !MustHitCovered(hit, outputLower))
  }

  /** The red lines the output touches, in input order. */
  function Violations(redLines: seq<string>, outputLower: string): (flagged: seq<string>)
    ensures IsSubsequence(flagged, redLines)
    ensures forall i :: 0 <= i < |flagged| ==> RedLineFlagged(flagged[i], outputLower)
    ensures forall i :: 0 <= i < |redLines| && RedLineFlagged(redLines[i], outputLower) ==> redLines[i] in flagged
    ensures forall x :: multiset(flagged)[x] == if RedLineFlagged(x, outputLower) then multiset(redLines)[x] else 0
  {
    FilterCounts(redLines, redLine => RedLineFlagged(redLine, outputLower));
    Filter(redLines, redLine => RedLineFlagged(redLine, outputLower))
  }

  /** The must-hit rule, run only when `must_hits` is present and non-empty;
      skipping it otherwise reports nothing different. */
  function CheckMustHits(mustHits: Option<seq<string>>, outputLower: string): (missing: seq<string>)
    ensures missing == MissingMustHits(Entries(mustHits), outputLower)
  {
    if mustHits.Some? && |mustHits.value| > 0 then MissingMustHits(mustHits.value, outputLower) else []
  }

  /** The red-line rule, run only when `red_lines` is present and non-empty;
      skipping it otherwise reports nothing different. */
  function CheckRedLines(redLines: Option<seq<string>>, outputLower: string): (flagged: seq<string>)
    ensures flagged == Violations(Entries(redLines), outputLower)
  {
    if redLines.Some? && |redLines.value| > 0 then Violations(redLines.value, outputLower) else []
  }

  /** Some red line is reported exactly when some entry is flagged. */
  lemma ViolationsIffSomeFlagged(redLines: seq<string>, outputLower: string)
    ensures |Violations(redLines, outputLower)| > 0
            <==> exists i :: 0 <= i < |redLines| && RedLineFlagged(redLines[i], outputLower)
  {
    var flagged := Violations(redLines, outputLower);
    if |flagged| > 0 {
      SubsequenceMembers(flagged, redLines, flagged[0]);
      var i :| 0 <= i < |redLines| && redLines[i] == flagged[0];
      assert RedLineFlagged(redLines[i], outputLower);
    }
  }

  /** The two keyword policies are one test: an entry would be a covered
      must-hit exactly when, as a red line, it would be flagged. */
  lemma MustHitAndRedLineAgree(entry: string, outputLower: string)
    ensures MustHitCovered(entry, outputLower) <==> RedLineFlagged(entry, outputLower)
  {
    SplitLower(entry);
  }

  /** An entry without keywords (empty or blank) is always a missing
      must-hit and never a flagged red line. */
  lemma KeywordlessEntry(entry: string, outputLower: string)
    requires forall i :: 0 <= i < |entry| ==> IsSpace(entry[i])
    ensures entry in MissingMustHits([entry], outputLower)
    ensures Violations([entry], outputLower) == []
  {
    SplitBlank(entry);
    forall i | 0 <= i < |entry|
      ensures IsSpace(Lower(entry)[i])
    {
      LowerCharKeepsSpace(entry[i]);
    }
    SplitBlank(Lower(entry));
    assert !RedLineFlagged(entry, outputLower);
    assert [entry][1..] == [];
  }

  /** The listed phrases that do not occur in `text`, in list order. */
  function AbsentPhrases(phrases: seq<string>, text: string): (absent: seq<string>)
    ensures IsSubsequence(absent, phrases)
    ensures forall i :: 0 <= i < |absent| ==> !Contains(text, absent[i])
    ensures forall i :: 0 <= i < |phrases| && !Contains(text, phrases[i]) ==> phrases[i] in absent
    ensures forall x :: multiset(absent)[x] == if !Contains(text, x) then multiset(phrases)[x] else 0
  {
    FilterCounts(phrases, phrase => !Contains(text, phrase));
    Filter(phrases, phrase => !Contains(text, phrase))
  }

  /** The listed phrases that occur in `text`, in list order. */
  function PresentPhrases(phrases: seq<string>, text: string): (present: seq<string>)
    ensures IsSubsequence(present, phrases)
    ensures forall i :: 0 <= i < |present| ==> Contains(text, present[i])
    ensures forall i :: 0 <= i < |phrases| && Contains(text, phrases[i]) ==> phrases[i] in present
    ensures forall x :: multiset(present)[x] == if Contains(text, x) then multiset(phrases)[x] else 0
  {
    FilterCounts(phrases, phrase => Contains(text, phrase));
    Filter(phrases, phrase => Contains(text, phrase))
  }

  // ---------------------------------------------------------------------
  // Research output validation

  const MissingSourcesRegister := "Missing Sources Register section"
  const FewCitations := "Few source citations found - ensure claims are properly cited"
  const FewDates := "Few dates found - ensure sources include publication dates"

  function MissingMustHitsMessage(missing: seq<string>): string {
    "Missing must-hit coverage: " + Join(", ", missing)
  }

  function ResearchViolationsMessage(flagged: seq<string>): string {
    "Potential red-line violations: " + Join(", ", flagged)
  }

  function InsufficientSourcesMessage(count: nat): string {
    "Insufficient sources found: " + NatToString(count) + " (minimum 5 required)"
  }

  /** The four research errors can never be confused with one another. */
  lemma ResearchMessagesDistinct(missing: seq<string>, flagged: seq<string>, sources: nat)
    ensures Distinct([MissingSourcesRegister, MissingMustHitsMessage(missing),
                      ResearchViolationsMessage(flagged), InsufficientSourcesMessage(sources)])
  {
    var m1 := MissingSourcesRegister;
    var m2 := MissingMustHitsMessage(missing);
    var m3 := ResearchViolationsMessage(flagged);
    var m4 := InsufficientSourcesMessage(sources);
    assert m1[8] == 'S' && m2[8] == 'm';
    assert m1[0] == 'M' && m2[0] == 'M' && m3[0] == 'P' && m4[0] == 'I';
  }

  /** The research errors, in the order the rules run. */
  function ResearchErrors(noRegister: bool, missing: seq<string>, flagged: seq<string>, sources: nat)
    : (errors: seq<string>)
    ensures MissingSourcesRegister in errors <==> noRegister
    ensures MissingMustHitsMessage(missing) in errors <==> |missing| > 0
    ensures ResearchViolationsMessage(flagged) in errors <==> |flagged| > 0
    ensures InsufficientSourcesMessage(sources) in errors <==> sources < 5
    ensures sources < 5 ==> |errors| > 0 && errors[|errors| - 1] == InsufficientSourcesMessage(sources)
    ensures IsSubsequence(errors, [MissingSourcesRegister, MissingMustHitsMessage(missing),
                                   ResearchViolationsMessage(flagged), InsufficientSourcesMessage(sources)])
  {
    ResearchMessagesDistinct(missing, flagged, sources);
    var conds := [noRegister, |missing| > 0, |flagged| > 0, sources < 5];
    var items := [MissingSourcesRegister, MissingMustHitsMessage(missing),
                  ResearchViolationsMessage(flagged), InsufficientSourcesMessage(sources)];
    var errors := Select(conds, items);
    assert items[0] in errors <==> conds[0];
    assert items[1] in errors <==> conds[1];
    assert items[2] in errors <==> conds[2];
    assert items[3] in errors <==> conds[3];
    errors
  }

  /** The research warnings, in the order the rules run. */
  function ResearchWarnings(citations: nat, dates: nat): (warnings: seq<string>)
    ensures FewCitations in warnings <==> citations < 3
    ensures FewDates in warnings <==> dates < 3
    ensures IsSubsequence(warnings, [FewCitations, FewDates])
  {
    assert Distinct([FewCitations, FewDates]);
    Select([citations < 3, dates < 3], [FewCitations, FewDates])
  }

  /** `validate_research_output`. */
  function ValidateResearchOutput(output: string, requirements: TaskRequirements): (r: ValidationResult)
    ensures Consistent(r)
    ensures MissingSourcesRegister in r.errors <==> !Contains(Lower(output), "sources register")
    ensures var missing := MissingMustHits(Entries(requirements.mustHits), Lower(output));
            MissingMustHitsMessage(missing) in r.errors <==> |missing| > 0
    ensures var flagged := Violations(Entries(requirements.redLines), Lower(output));
            ResearchViolationsMessage(flagged) in r.errors <==> |flagged| > 0
    ensures var sources := CountNumberedLines(output);
            InsufficientSourcesMessage(sources) in r.errors <==> sources < 5
    ensures CountNumberedLines(output) < 5 ==>
              !r.isValid && r.errors[|r.errors| - 1] == InsufficientSourcesMessage(CountNumberedLines(output))
    ensures IsSubsequence(r.errors, [
              MissingSourcesRegister,
              MissingMustHitsMessage(MissingMustHits(Entries(requirements.mustHits), Lower(output))),
              ResearchViolationsMessage(Violations(Entries(requirements.redLines), Lower(output))),
              InsufficientSourcesMessage(CountNumberedLines(output))])
    ensures FewCitations in r.warnings <==> CountCitations(output) < 3
    ensures FewDates in r.warnings <==> CountDates(output) < 3
    ensures IsSubsequence(r.warnings, [FewCitations, FewDates])
  {
    var outputLower := Lower(output);
    var errors := ResearchErrors(
      !Contains(outputLower, "sources register"),
      CheckMustHits(requirements.mustHits, outputLower),
      CheckRedLines(requirements.redLines, outputLower),
      CountNumberedLines(output));
    Verdict(errors, ResearchWarnings(CountCitations(output), CountDates(output)))
  }

  // ---------------------------------------------------------------------
  // Script output validation

  /** The section names a draft is expected to mention, in report order. */
  const RequiredSections := ["hook", "context", "what's new", "receipts", "counterpoints", "implications"]
  /** Phrases that suggest speculation, in report order. */
  const SpeculativePhrases := ["will likely", "probably will", "expected to", "should result in"]
  const FewScriptCitations := "Few source citations found in script"

  function MissingSectionsMessage(missing: seq<string>): string {
    "Missing or unclear sections: " + Join(", ", missing)
  }

  function TooShortMessage(words: nat): string {
    "Script may be too short: " + NatToString(words) + " words"
  }

  function TooLongMessage(words: nat): string {
    "Script may be too long: " + NatToString(words) + " words"
  }

  function SpeculationMessage(found: seq<string>): string {
    "Potentially speculative language found: " + Join(", ", found)
  }

  function ScriptViolationsMessage(flagged: seq<string>): string {
    "Potential red-line violations in script: " + Join(", ", flagged)
  }

  /** The five script warnings can never be confused with one another. */
  lemma ScriptMessagesDistinct(missing: seq<string>, words: nat, speculation: seq<string>)
    ensures Distinct([MissingSectionsMessage(missing), TooShortMessage(words), TooLongMessage(words),
                      FewScriptCitations, SpeculationMessage(speculation)])
  {
    var m1 := MissingSectionsMessage(missing);
    var m2 := TooShortMessage(words);
    var m3 := TooLongMessage(words);
    var m4 := FewScriptCitations;
    var m5 := SpeculationMessage(speculation);
    assert m1[0] == 'M' && m2[0] == 'S' && m3[0] == 'S' && m4[0] == 'F' && m5[0] == 'P';
    assert m2[18] == 's' && m3[18] == 'l';
  }

  /** The script warnings, in the order the rules run. */
  function ScriptWarnings(missing: seq<string>, words: nat, citations: nat, speculation: seq<string>)
    : (warnings: seq<string>)
    ensures MissingSectionsMessage(missing) in warnings <==> |missing| > 0
    ensures TooShortMessage(words) in warnings <==> words < 500
    ensures TooLongMessage(words) in warnings <==> words > 1500
    ensures FewScriptCitations in warnings <==> citations < 3
    ensures SpeculationMessage(speculation) in warnings <==> |speculation| > 0
    ensures IsSubsequence(warnings, [MissingSectionsMessage(missing), TooShortMessage(words),
                                     TooLongMessage(words), FewScriptCitations, SpeculationMessage(speculation)])
  {
    ScriptMessagesDistinct(missing, words, speculation);
    var conds := [|missing| > 0, words < 500, words > 1500, citations < 3, |speculation| > 0];
    var items := [MissingSectionsMessage(missing), TooShortMessage(words), TooLongMessage(words),
                  FewScriptCitations, SpeculationMessage(speculation)];
    var warnings := Select(conds, items);
    assert items[0] in warnings <==> conds[0];
    assert items[1] in warnings <==> conds[1];
    assert items[2] in warnings <==> conds[2];
    assert items[3] in warnings <==> conds[3];
    assert items[4] in warnings <==> conds[4];
    warnings
  }

  /** `validate_script_output`. Only a red-line hit is an error; everything
      else is advisory. */
  function ValidateScriptOutput(output: string, requirements: TaskRequirements): (r: ValidationResult)
    ensures Consistent(r)
    ensures |r.errors| <= 1
    ensures var flagged := Violations(Entries(requirements.redLines), Lower(output));
            ScriptViolationsMessage(flagged) in r.errors <==> |flagged| > 0
    ensures !r.isValid <==> exists i :: 0 <= i < |Entries(requirements.redLines)|
                                        && RedLineFlagged(Entries(requirements.redLines)[i], Lower(output))
    ensures var missing := AbsentPhrases(RequiredSections, Lower(output));
            MissingSectionsMessage(missing) in r.warnings <==> |missing| > 0
    ensures TooShortMessage(|Split(output)|) in r.warnings <==> |Split(output)| < 500
    ensures TooLongMessage(|Split(output)|) in r.warnings <==> |Split(output)| > 1500
    ensures !(TooShortMessage(|Split(output)|) in r.warnings && TooLongMessage(|Split(output)|) in r.warnings)
    ensures FewScriptCitations in r.warnings <==> CountCitations(output) < 3
    ensures var found := PresentPhrases(SpeculativePhrases, Lower(output));
            SpeculationMessage(found) in r.warnings <==> |found| > 0
    ensures IsSubsequence(r.warnings, [
              MissingSectionsMessage(AbsentPhrases(RequiredSections, Lower(output))),
              TooShortMessage(|Split(output)|), TooLongMessage(|Split(output)|), FewScriptCitations,
              SpeculationMessage(PresentPhrases(SpeculativePhrases, Lower(output)))])
  {
    var outputLower := Lower(output);
    var flagged := CheckRedLines(requirements.redLines, outputLower);
    var errors := When(|flagged| > 0, ScriptViolationsMessage(flagged));
    ViolationsIffSomeFlagged(Entries(requirements.redLines), outputLower);
    var warnings := ScriptWarnings(
      AbsentPhrases(RequiredSections, outputLower),
      |Split(output)|,
      CountCitations(output),
      PresentPhrases(SpeculativePhrases, outputLower));
    Verdict(errors, warnings)
  }

  /** Both output validators flag the same red lines: the research verdict
      reports a red-line error exactly when the script verdict does, and both
      list the same entries. */
  lemma SameRedLinePolicy(output: string, requirements: TaskRequirements)
    ensures var flagged := Violations(Entries(requirements.redLines), Lower(output));
            (ResearchViolationsMessage(flagged) in ValidateResearchOutput(output, requirements).errors)
            <==> (ScriptViolationsMessage(flagged) in ValidateScriptOutput(output, requirements).errors)
  {
  }

  // ---------------------------------------------------------------------
  // Validation report

  const PassedStatus := "Status: \U{2705} PASSED"
  const FailedStatus := "Status: \U{274C} FAILED"
  const ErrorsHeading := "\n\U{1F6A8} ERRORS:"
  const WarningsHeading := "\n\U{26A0}\U{FE0F}  WARNINGS:"
  const AllPassed := "\n\U{2728} All checks passed!"

  function ReportTitle(agentName: string): string {
    "=== " + agentName + " Validation Report ==="
  }

  /** One enumerated entry of the ERRORS or WARNINGS block. */
  function Bullet(item: string): string {
    "  - " + item
  }

  /** A heading followed by one bullet per item, or nothing for no items. */
  function Block(heading: string, items: seq<string>): (lines: seq<string>)
    ensures |items| == 0 ==> lines == []
    ensures |items| > 0 ==> |lines| == |items| + 1 && lines[0] == heading
    ensures forall i :: 0 <= i < |items| ==> lines[i + 1] == Bullet(items[i])
  {
    if |items| == 0 then [] else [heading] + seq(|items|, i requires 0 <= i < |items| => Bullet(items[i]))
  }

  /** The entries of the validation report, before they are joined with newlines. */
  function ReportLines(result: ValidationResult, agentName: string): (lines: seq<string>)
    ensures |lines| >= 2
    ensures lines[0] == ReportTitle(agentName)
    ensures lines[1] == PassedStatus <==> result.isValid
    ensures lines[1] == FailedStatus <==> !result.isValid
    ensures |lines| == 2 + (if |result.errors| > 0 then |result.errors| + 1 else 0)
                         + (if |result.warnings| > 0 then |result.warnings| + 1 else 0)
                         + (if result.isValid && |result.warnings| == 0 then 1 else 0)
  {
    [ReportTitle(agentName), if result.isValid then PassedStatus else FailedStatus]
    + Block(ErrorsHeading, result.errors)
    + Block(WarningsHeading, result.warnings)
    + When(result.isValid && |result.warnings| == 0, AllPassed)
  }

  /** After the title and the status come the ERRORS block, then the
      WARNINGS block, and for a clean pass the closing line last. */
  lemma ReportSections(result: ValidationResult, agentName: string)
    ensures var lines := ReportLines(result, agentName);
            var e := |Block(ErrorsHeading, result.errors)|;
            var w := |Block(WarningsHeading, result.warnings)|;
            && lines[2..2 + e] == Block(ErrorsHeading, result.errors)
            && lines[2 + e..2 + e + w] == Block(WarningsHeading, result.warnings)
            && (result.isValid && |result.warnings| == 0 ==> lines[|lines| - 1] == AllPassed)
  {
    var head := [ReportTitle(agentName), if result.isValid then PassedStatus else FailedStatus];
    var tail := When(result.isValid && |result.warnings| == 0, AllPassed);
    FourParts(head, Block(ErrorsHeading, result.errors), Block(WarningsHeading, result.warnings), tail);
  }

  /** The fixed lines of the report differ from the title, the status and
      every bullet, so each is present exactly when its block is. */
  lemma ReportHeadings(result: ValidationResult, agentName: string)
    ensures ErrorsHeading in ReportLines(result, agentName) <==> |result.errors| > 0
    ensures WarningsHeading in ReportLines(result, agentName) <==> |result.warnings| > 0
    ensures AllPassed in ReportLines(result, agentName) <==> result.isValid && |result.warnings| == 0
  {
    var head := [ReportTitle(agentName), if result.isValid then PassedStatus else FailedStatus];
    var errors := Block(ErrorsHeading, result.errors);
    var warnings := Block(WarningsHeading, result.warnings);
    var tail := When(result.isValid && |result.warnings| == 0, AllPassed);
    var lines := ReportLines(result, agentName);
    assert lines == head + errors + warnings + tail;
    assert ReportTitle(agentName)[0] == '=' && PassedStatus[0] == 'S' && FailedStatus[0] == 'S';
    assert ErrorsHeading[0] == '\n' && WarningsHeading[0] == '\n' && AllPassed[0] == '\n';
    assert ErrorsHeading[1] != WarningsHeading[1] && ErrorsHeading[1] != AllPassed[1]
           && WarningsHeading[1] != AllPassed[1];
    InBlock(ErrorsHeading, ErrorsHeading, result.errors);
    InBlock(ErrorsHeading, WarningsHeading, result.warnings);
    InBlock(WarningsHeading, ErrorsHeading, result.errors);
    InBlock(WarningsHeading, WarningsHeading, result.warnings);
    InBlock(AllPassed, ErrorsHeading, result.errors);
    InBlock(AllPassed, WarningsHeading, result.warnings);
  }

  /** A line that does not start with a space is in a block only as its heading. */
  lemma InBlock(x: string, heading: string, items: seq<string>)
    requires |x| > 0 && x[0] != ' '
    ensures x in Block(heading, items) <==> |items| > 0 && x == heading
  {
    var lines := Block(heading, items);
    forall k | 1 <= k < |lines|
      ensures lines[k] != x
    {
      assert lines[k][0] == ' ';
    }
  }

  /** `format_validation_report`: the report lines joined with newlines. */
  function FormatValidationReport(result: ValidationResult, agentName: string): (report: string)
    ensures StartsWith(report, ReportTitle(agentName) + "\n")
    ensures result.isValid && |result.warnings| == 0 ==> EndsWith(report, AllPassed)
  {
    var lines := ReportLines(result, agentName);
    ReportSections(result, agentName);
    JoinStartsWithFirst("\n", lines);
    JoinEndsWithLast("\n", lines);
    Join("\n", lines)
  }
}

=== FILE: lists.dfy ===
/** Order-preserving selection from lists. */
module Lists {

  /** `xs` can be obtained from `ys` by deleting elements: its elements occur
      in `ys` in the same order. */
  predicate IsSubsequence<T(==)>(xs: seq<T>, ys: seq<T>)
    decreases |ys|
  {
    if |xs| == 0 then true
    else if |ys| == 0 then false
    else if xs[0] == ys[0] then IsSubsequence(xs[1..], ys[1..])
    else IsSubsequence(xs, ys[1..])
  }

  /** Putting an element in front of the larger list keeps a subsequence one. */
  lemma {:induction false} SubsequenceOfCons<T>(xs: seq<T>, y: T, ys: seq<T>)
    requires IsSubsequence(xs, ys)
    ensures IsSubsequence(xs, [y] + ys)
    decreases |ys|, 1
  {
    var zs := [y] + ys;
    assert zs[1..] == ys;
    if |xs| > 0 && xs[0] == y {
      SubsequenceDropFirst(xs, ys);
    }
  }

  /** A subsequence stays one when its first element is dropped. */
  lemma {:induction false} SubsequenceDropFirst<T>(xs: seq<T>, ys: seq<T>)
    requires |xs| > 0
    requires IsSubsequence(xs, ys)
    ensures IsSubsequence(xs[1..], ys)
    decreases |ys|, 0
  {
    if xs[0] == ys[0] {
      SubsequenceOfCons(xs[1..], ys[0], ys[1..]);
      assert [ys[0]] + ys[1..] == ys;
    } else {
      SubsequenceDropFirst(xs, ys[1..]);
      SubsequenceOfCons(xs[1..], ys[0], ys[1..]);
      assert [ys[0]] + ys[1..] == ys;
    }
  }

  /** Every element of a subsequence is an element of the larger list. */
  lemma {:induction false} SubsequenceMembers<T>(xs: seq<T>, ys: seq<T>, x: T)
    requires IsSubsequence(xs, ys)
    requires x in xs
    ensures x in ys
    decreases |ys|
  {
    if xs[0] == ys[0] {
      if x != xs[0] {
        assert x in xs[1..];
        SubsequenceMembers(xs[1..], ys[1..], x);
      }
    } else {
      SubsequenceMembers(xs, ys[1..], x);
    }
  }

  /** A one-element list when `c` holds, the empty list otherwise: one
      conditional `append` in the Python code. */
  function When<T>(c: bool, x: T): seq<T> {
    if c then [x] else []
  }

  /** Conditionally appended items, laid out in a fixed order, form a
      subsequence of that order. */
  lemma WhenSubsequence<T>(c: bool, x: T, rest: seq<T>, order: seq<T>)
    requires IsSubsequence(rest, order)
    ensures IsSubsequence(When(c, x) + rest, [x] + order)
  {
    var zs := [x] + order;
    assert zs[1..] == order;
    if c {
      assert (When(c, x) + rest)[1..] == rest;
    } else {
      assert When(c, x) + rest == rest;
      SubsequenceOfCons(rest, x, order);
    }
  }

  /** No element occurs twice. */
  predicate Distinct<T(==)>(xs: seq<T>) {
    forall i, j :: 0 <= i < j < |xs| ==> xs[i] != xs[j]
  }

  /** In a list without repeats, the first item is not among the later ones. */
  lemma HeadNotInTail<T>(rest: seq<T>, items: seq<T>)
    requires |items| > 0
    requires IsSubsequence(rest, items[1..])
    ensures Distinct(items) ==> items[0] !in rest
  {
    if Distinct(items) && items[0] in rest {
      SubsequenceMembers(rest, items[1..], items[0]);
    }
  }

  /** The items whose condition holds, in order: a run of conditional
      `append`s. For distinct items, an item is selected exactly when its
      condition holds. */
  function Select<T(==)>(conds: seq<bool>, items: seq<T>): (r: seq<T>)
    requires |conds| == |items|
    ensures IsSubsequence(r, items)
    ensures Distinct(items) ==> forall i :: 0 <= i < |items| ==> (items[i] in r <==> conds[i])
    ensures |conds| > 0 && conds[|conds| - 1] ==> |r| > 0 && r[|r| - 1] == items[|items| - 1]
    decreases |items|
  {
    if |items| == 0 then []
    else
      var rest := Select(conds[1..], items[1..]);
      WhenSubsequence(conds[0], items[0], rest, items[1..]);
      assert [items[0]] + items[1..] == items;
      HeadNotInTail(rest, items);
      When(conds[0], items[0]) + rest
  }

  /** The elements of `xs` satisfying `p`, in their original order
      (a Python list comprehension with an `if`, or an append loop). */
  function Filter<T>(xs: seq<T>, p: T -> bool): (r: seq<T>)
    ensures |r| <= |xs|
    ensures IsSubsequence(r, xs)
    ensures forall i :: 0 <= i < |r| ==> p(r[i])
    ensures forall i :: 0 <= i < |xs| && p(xs[i]) ==> xs[i] in r
    decreases |xs|
  {
    if |xs| == 0 then []
    else
      var rest := Filter(xs[1..], p);
      if p(xs[0]) then
        var r := [xs[0]] + rest;
        assert r[1..] == rest;
        r
      else
        SubsequenceOfCons(rest, xs[0], xs[1..]);
        assert [xs[0]] + xs[1..] == xs;
        rest
  }

  /** `Filter` keeps every occurrence of a kept element, repeats included,
      and none of a dropped one. */
  lemma {:induction false} FilterCounts<T>(xs: seq<T>, p: T -> bool)
    ensures forall x :: multiset(Filter(xs, p))[x] == if p(x) then multiset(xs)[x] else 0
    decreases |xs|
  {
    if |xs| > 0 {
      FilterCounts(xs[1..], p);
      assert xs == [xs[0]] + xs[1..];
      assert multiset(xs) == multiset([xs[0]]) + multiset(xs[1..]);
      if p(xs[0]) {
        assert Filter(xs, p) == [xs[0]] + Filter(xs[1..], p);
        assert multiset(Filter(xs, p)) == multiset([xs[0]]) + multiset(Filter(xs[1..], p));
      }
    }
  }

  /** `Filter` distributes over concatenation, so it keeps input order. */
  lemma {:induction false} FilterAppend<T>(xs: seq<T>, ys: seq<T>, p: T -> bool)
    ensures Filter(xs + ys, p) == Filter(xs, p) + Filter(ys, p)
    decreases |xs|
  {
    if |xs| > 0 {
      assert (xs + ys)[1..] == xs[1..] + ys;
      FilterAppend(xs[1..], ys, p);
    } else {
      assert xs + ys == ys;
    }
  }

  /** Where each of four concatenated lists sits in the whole. */
  lemma FourParts<T>(a: seq<T>, b: seq<T>, c: seq<T>, d: seq<T>)
    ensures var xs := a + b + c + d;
            && xs[|a|..|a| + |b|] == b
            && xs[|a| + |b|..|a| + |b| + |c|] == c
            && (|d| > 0 ==> xs[|xs| - 1] == d[|d| - 1])
  {
  }
}

=== FILE: mcp_health.dfy ===
/**
 Health checks for the three MCP integrations (the hosted Exa search server
 and the stdio and HTTP transports of the Notion server), their
 aggregation, the text report and the remediation hints.

 Environment variables arrive as an `Environment` record, the outcome of
 connecting to a server and listing its tools as a `Result`, and elapsed
 times as numbers; the probes are otherwise the decision logic of
 mcp_health.py.
 */
module McpHealth {
  import opened Wrappers
  import opened Text
  import opened Lists

  /** The four states a probe can report. */
  datatype Status = Healthy | Degraded | Failed | NotConfigured {
    /** The enum member's string value. */
    function Value(): string {
      match this
      case Healthy => "healthy"
      case Degraded => "degraded"
      case Failed => "failed"
      case NotConfigured => "not_configured"
    }
  }

  /** One probe's finding. */
  datatype HealthCheck = HealthCheck(
    serverName: string,
    status: Status,
    responseTimeMs: Option<real>,
    errorMessage: Option<string>,
    toolsCount: Option<int>)

  /** A record that carries neither a response time nor a tool count. */
  predicate NoMetrics(c: HealthCheck) {
    c.responseTimeMs.None? && c.toolsCount.None?
  }

  /** The shape every probe record has: not-configured and failed records
      carry no metrics and an error message; healthy ones no error message. */
  predicate WellShaped(c: HealthCheck) {
    && (c.status == NotConfigured || c.status == Failed ==> NoMetrics(c) && c.errorMessage.Some?)
    && (c.status == Healthy ==> c.errorMessage.None? && c.responseTimeMs.Some? && c.toolsCount.Some?)
  }

  /** The environment variables the probes read. */
  datatype Environment = Environment(
    exaApiKey: Option<string>,
    notionToken: Option<string>,
    notionMcpUrl: Option<string>,
    notionMcpAuthToken: Option<string>)

  /** A variable counts as set when it is present and non-empty (`if not x`
      treats both `None` and `""` as unset). */
  predicate IsSet(v: Option<string>) {
    v.Some? && |v.value| > 0
  }

  const ExaServer := "exa-hosted"
  const NotionStdioServer := "notion-stdio"
  const NotionHttpServer := "notion-http"

  // ---------------------------------------------------------------------
  // Probes

  /** Exa keys are expected to start with one of these prefixes. */
  predicate PlausibleExaKey(key: string) {
    StartsWith(key, "exa_") || StartsWith(key, "2171d0a6")
  }

  /** `check_exa_mcp_health`: no connection is made; the key's shape decides. */
  function CheckExaHealth(apiKey: Option<string>, elapsedMs: real): (c: HealthCheck)
    ensures c.serverName == ExaServer
    ensures WellShaped(c)
    ensures c.status != Failed
    ensures c.status == NotConfigured <==> !IsSet(apiKey)
    ensures c.status == NotConfigured ==> c.errorMessage == Some("EXA_API_KEY not set")
    ensures c.status == Degraded <==> IsSet(apiKey) && !PlausibleExaKey(apiKey.value)
    ensures c.status == Degraded ==>
              c.errorMessage == Some("API key format appears invalid") && c.toolsCount.None?
    ensures c.status == Healthy <==> IsSet(apiKey) && PlausibleExaKey(apiKey.value)
    ensures c.status == Healthy ==> c.toolsCount == Some(2)
  {
    if !IsSet(apiKey) then
      HealthCheck(ExaServer, NotConfigured, None, Some("EXA_API_KEY not set"), None)
    else if !PlausibleExaKey(apiKey.value) then
      HealthCheck(ExaServer, Degraded, Some(elapsedMs), Some("API key format appears invalid"), None)
    else
      HealthCheck(ExaServer, Healthy, Some(elapsedMs), None, Some(2))
  }

  /** `check_notion_stdio_health`. `listing` is the outcome of starting the
      server, connecting and listing its tools: the number of tools, or the
      message of the exception raised. */
  function CheckNotionStdioHealth(token: Option<string>, listing: Result<nat, string>, elapsedMs: real)
    : (c: HealthCheck)
    ensures c.serverName == NotionStdioServer
    ensures WellShaped(c)
    ensures c.status != Degraded
    ensures c.status == NotConfigured <==> !IsSet(token)
    ensures c.status == NotConfigured ==> c.errorMessage == Some("NOTION_TOKEN not set")
    ensures c.status == Healthy <==> IsSet(token) && listing.Success?
    ensures c.status == Healthy ==> c.toolsCount == Some(listing.value as int)
    ensures c.status == Failed <==> IsSet(token) && listing.Failure?
    ensures c.status == Failed ==> c.errorMessage == Some(listing.error)
  {
    if !IsSet(token) then
      HealthCheck(NotionStdioServer, NotConfigured, None, Some("NOTION_TOKEN not set"), None)
    else
      match listing
      case Success(tools) => HealthCheck(NotionStdioServer, Healthy, Some(elapsedMs), None, Some(tools))
      case Failure(message) => HealthCheck(NotionStdioServer, Failed, None, Some(message), None)
  }

  /** How closing the HTTP session went. A server without a `disconnect`
      method raises `AttributeError`, which the probe ignores. */
  datatype Disconnect = Disconnected | NoDisconnectMethod | DisconnectRaised(message: string)

  /** The request headers of the HTTP probe: a bearer token when one is set. */
  function HttpHeaders(authToken: Option<string>): (headers: map<string, string>)
    ensures "Authorization" in headers <==> IsSet(authToken)
    ensures IsSet(authToken) ==> headers["Authorization"] == "Bearer " + authToken.value
    ensures |headers| <= 1
  {
    if IsSet(authToken) then map["Authorization" := "Bearer " + authToken.value] else map[]
  }

  /** The server behind the HTTP probe: what connecting with the given
      request headers and listing tools yields, a tool count or the message
      of the exception raised. */
  type HttpServer = map<string, string> -> Result<nat, string>

  /** `check_notion_http_health`. The server is contacted with the headers
      built from `authToken`; `disconnect` is the outcome of closing the
      session afterwards. */
  function CheckNotionHttpHealth(url: Option<string>, authToken: Option<string>, server: HttpServer,
                                 disconnect: Disconnect, elapsedMs: real): (c: HealthCheck)
    ensures c.serverName == NotionHttpServer
    ensures WellShaped(c)
    ensures c.status != Degraded
    ensures c.status == NotConfigured <==> !IsSet(url)
    ensures c.status == NotConfigured ==> c.errorMessage == Some("NOTION_MCP_URL not set")
    ensures var listing := server(HttpHeaders(authToken));
            && (c.status == Healthy <==> IsSet(url) && listing.Success? && !disconnect.DisconnectRaised?)
            && (c.status == Healthy ==> c.toolsCount == Some(listing.value as int))
            && (IsSet(url) && listing.Failure? ==> c.status == Failed && c.errorMessage == Some(listing.error))
            && (IsSet(url) && listing.Success? && disconnect.DisconnectRaised? ==>
                  c.status == Failed && c.errorMessage == Some(disconnect.message))
  {
    if !IsSet(url) then
      HealthCheck(NotionHttpServer, NotConfigured, None, Some("NOTION_MCP_URL not set"), None)
    else
      match server(HttpHeaders(authToken))
      case Failure(message) => HealthCheck(NotionHttpServer, Failed, None, Some(message), None)
      case Success(tools) =>
        match disconnect
        case DisconnectRaised(message) => HealthCheck(NotionHttpServer, Failed, None, Some(message), None)
        case _ => HealthCheck(NotionHttpServer, Healthy, Some(elapsedMs), None, Some(tools))
  }

  /** Without its credential a Notion probe attempts no connection: what the
      connection would have done cannot change its record. */
  lemma UnconfiguredProbesIgnoreConnection(
    token: Option<string>, url: Option<string>,
    listing1: Result<nat, string>, listing2: Result<nat, string>,
    authToken1: Option<string>, authToken2: Option<string>, server1: HttpServer, server2: HttpServer,
    disconnect1: Disconnect, disconnect2: Disconnect, elapsed1: real, elapsed2: real)
    ensures !IsSet(token) ==>
              CheckNotionStdioHealth(token, listing1, elapsed1) == CheckNotionStdioHealth(token, listing2, elapsed2)
    ensures !IsSet(url) ==>
              CheckNotionHttpHealth(url, authToken1, server1, disconnect1, elapsed1)
              == CheckNotionHttpHealth(url, authToken2, server2, disconnect2, elapsed2)
  {
  }

  // ---------------------------------------------------------------------
  // Aggregation

  /** The record that stands in for a probe that raised instead of returning. */
  function UnknownFailure(message: string): HealthCheck {
    HealthCheck("unknown", Failed, None, Some(message), None)
  }

  /** The loop of `run_all_health_checks` over the gathered outcomes: a
      raised exception becomes a failed "unknown" record, a returned record
      passes through. */
  function CollectChecks(outcomes: seq<Result<HealthCheck, string>>): (checks: seq<HealthCheck>)
    ensures |checks| == |outcomes|
    ensures forall i :: 0 <= i < |outcomes| && outcomes[i].Success? ==> checks[i] == outcomes[i].value
    ensures forall i :: 0 <= i < |outcomes| && outcomes[i].Failure? ==>
              checks[i].serverName == "unknown" && checks[i].status == Failed
              && checks[i].errorMessage == Some(outcomes[i].error) && NoMetrics(checks[i])
  {
    seq(|outcomes|, i requires 0 <= i < |outcomes| =>
      match outcomes[i]
      case Success(check) => check
      case Failure(message) => UnknownFailure(message))
  }

  /** Collecting keeps the order of the outcomes: it distributes over
      concatenation. */
  lemma CollectChecksAppend(a: seq<Result<HealthCheck, string>>, b: seq<Result<HealthCheck, string>>)
    ensures CollectChecks(a + b) == CollectChecks(a) + CollectChecks(b)
  {
  }

  /** What the probes' external calls do, in one record. */
  datatype ProbeEffects = ProbeEffects(
    exaElapsedMs: real,
    stdioListing: Result<nat, string>,
    stdioElapsedMs: real,
    httpServer: HttpServer,
    httpDisconnect: Disconnect,
    httpElapsedMs: real)

  /** `run_all_health_checks`. The probes catch their own exceptions, so every
      gathered outcome is a returned record. */
  function RunAllHealthChecks(env: Environment, effects: ProbeEffects): (checks: seq<HealthCheck>)
    ensures checks == [CheckExaHealth(env.exaApiKey, effects.exaElapsedMs),
                       CheckNotionStdioHealth(env.notionToken, effects.stdioListing, effects.stdioElapsedMs),
                       CheckNotionHttpHealth(env.notionMcpUrl, env.notionMcpAuthToken, effects.httpServer,
                                             effects.httpDisconnect, effects.httpElapsedMs)]
    ensures |checks| == 3
    ensures checks[0].serverName == ExaServer
    ensures checks[1].serverName == NotionStdioServer
    ensures checks[2].serverName == NotionHttpServer
    ensures forall i :: 0 <= i < 3 ==> WellShaped(checks[i])
    ensures forall i :: 0 <= i < 3 ==> (checks[i].status == NotConfigured <==>
              !IsSet([env.exaApiKey, env.notionToken, env.notionMcpUrl][i]))
  {
    CollectChecks([
      Success(CheckExaHealth(env.exaApiKey, effects.exaElapsedMs)),
      Success(CheckNotionStdioHealth(env.notionToken, effects.stdioListing, effects.stdioElapsedMs)),
      Success(CheckNotionHttpHealth(env.notionMcpUrl, env.notionMcpAuthToken, effects.httpServer,
                                    effects.httpDisconnect,
                                    effects.httpElapsedMs))])
  }

  // ---------------------------------------------------------------------
  // Report

  const ReportHeader := "=== MCP Health Check Report ===\n"

  predicate IsHealthy(c: HealthCheck) {
    c.status == Healthy
  }

  predicate IsConfigured(c: HealthCheck) {
    c.status != NotConfigured
  }

  /** How many checks are healthy. */
  function HealthyCount(checks: seq<HealthCheck>): (n: nat)
    ensures n == |Filter(checks, IsHealthy)|
    ensures n <= |checks|
    ensures n == 0 <==> forall i :: 0 <= i < |checks| ==> checks[i].status != Healthy
  {
    if |checks| == 0 then 0
    else (if checks[0].status == Healthy then 1 else 0) + HealthyCount(checks[1..])
  }

  /** How many checks concern a configured server. */
  function ConfiguredCount(checks: seq<HealthCheck>): (n: nat)
    ensures n == |Filter(checks, IsConfigured)|
    ensures n <= |checks|
    ensures n == 0 <==> forall i :: 0 <= i < |checks| ==> checks[i].status == NotConfigured
  {
    if |checks| == 0 then 0
    else (if checks[0].status != NotConfigured then 1 else 0) + ConfiguredCount(checks[1..])
  }

  /** Every healthy server is a configured one, so the tally never reads
      more healthy than configured servers. */
  lemma {:induction false} HealthyWithinConfigured(checks: seq<HealthCheck>)
    ensures HealthyCount(checks) <= ConfiguredCount(checks) <= |checks|
  {
    if |checks| > 0 {
      HealthyWithinConfigured(checks[1..]);
    }
  }

  function OverallLine(healthy: nat, configured: nat): string {
    "Overall Status: " + NatToString(healthy) + "/" + NatToString(configured) + " servers healthy\n"
  }

  function StatusEmoji(status: Status): string {
    match status
    case Healthy => "\U{2705}"
    case Degraded => "\U{26A0}\U{FE0F}"
    case Failed => "\U{274C}"
    case NotConfigured => "\U{26AA}"
  }

  /** How an f-string renders an optional string: `None` prints as "None". */
  function OptionalText(v: Option<string>): string {
    match v
    case None => "None"
    case Some(s) => s
  }

  /** A response time is printed only when present and non-zero (a zero
      float is falsy). */
  predicate ShowsResponseTime(c: HealthCheck) {
    c.responseTimeMs.Some? && c.responseTimeMs.value != 0.0
  }

  /** An error line is printed only for a non-empty message. */
  predicate ShowsError(c: HealthCheck) {
    c.errorMessage.Some? && |c.errorMessage.value| > 0
  }

  /** A detail line: indented by spaces. */
  predicate Indented(line: string) {
    |line| > 0 && line[0] == ' '
  }

  /** The detail lines of a healthy check. */
  function HealthyDetails(c: HealthCheck, formatMs: real -> string): (details: seq<string>)
    ensures |details| == 1 + (if ShowsResponseTime(c) then 1 else 0) + (if c.toolsCount.Some? then 1 else 0)
    ensures details[0] == "   Status: Healthy"
    ensures ShowsResponseTime(c) ==> details[1] == "   Response Time: " + formatMs(c.responseTimeMs.value) + "ms"
    ensures c.toolsCount.Some? ==> details[|details| - 1] == "   Tools Available: " + IntToString(c.toolsCount.value)
    ensures forall i :: 0 <= i < |details| ==> Indented(details[i])
  {
    var status := "   Status: Healthy";
    match (c.responseTimeMs, c.toolsCount)
    case (Some(t), Some(n)) =>
      if t != 0.0 then [status, "   Response Time: " + formatMs(t) + "ms", "   Tools Available: " + IntToString(n)]
      else [status, "   Tools Available: " + IntToString(n)]
    case (Some(t), None) =>
      if t != 0.0 then [status, "   Response Time: " + formatMs(t) + "ms"] else [status]
    case (None, Some(n)) => [status, "   Tools Available: " + IntToString(n)]
    case (None, None) => [status]
  }

  /** The detail lines of a degraded or failed check. */
  function ProblemDetails(c: HealthCheck): (details: seq<string>)
    ensures |details| == 1 + (if ShowsError(c) then 1 else 0)
    ensures details[0] == "   Status: " + c.status.Value()
    ensures ShowsError(c) ==> details[1] == "   Error: " + c.errorMessage.value
    ensures forall i :: 0 <= i < |details| ==> Indented(details[i])
  {
    ["   Status: " + c.status.Value()] + (if ShowsError(c) then ["   Error: " + c.errorMessage.value] else [])
  }

  /** The detail lines of a check, chosen by its status. */
  function StatusDetails(c: HealthCheck, formatMs: real -> string): (details: seq<string>)
    ensures 1 <= |details| <= 3
    ensures forall i :: 0 <= i < |details| ==> Indented(details[i])
  {
    match c.status
    case NotConfigured => ["   Status: Not configured (" + OptionalText(c.errorMessage) + ")"]
    case Healthy => HealthyDetails(c, formatMs)
    case _ => ProblemDetails(c)
  }

  /** The lines one check contributes to the report: a title line, the
      detail lines and a blank line. `formatMs` renders a time in
      milliseconds with one decimal, which is not modelled. */
  function CheckBlock(c: HealthCheck, formatMs: real -> string): (lines: seq<string>)
    ensures 3 <= |lines| <= 5
    ensures lines[0] == StatusEmoji(c.status) + " " + c.serverName
    ensures lines[|lines| - 1] == ""
    ensures forall i :: 1 <= i < |lines| - 1 ==> Indented(lines[i])
    ensures c.status == NotConfigured ==>
              |lines| == 3 && lines[1] == "   Status: Not configured (" + OptionalText(c.errorMessage) + ")"
    ensures c.status == Healthy ==>
              lines[1] == "   Status: Healthy"
              && |lines| == 3 + (if ShowsResponseTime(c) then 1 else 0) + (if c.toolsCount.Some? then 1 else 0)
    ensures c.status == Healthy && ShowsResponseTime(c) ==>
              lines[2] == "   Response Time: " + formatMs(c.responseTimeMs.value) + "ms"
    ensures c.status == Healthy && c.toolsCount.Some? ==>
              lines[|lines| - 2] == "   Tools Available: " + IntToString(c.toolsCount.value)
    ensures c.status == Degraded || c.status == Failed ==>
              lines[1] == "   Status: " + c.status.Value()
              && |lines| == 3 + (if ShowsError(c) then 1 else 0)
    ensures (c.status == Degraded || c.status == Failed) && ShowsError(c) ==>
              lines[2] == "   Error: " + c.errorMessage.value
  {
    var details := StatusDetails(c, formatMs);
    var lines := [StatusEmoji(c.status) + " " + c.serverName] + details + [""];
    assert forall i :: 0 <= i < |details| ==> lines[i + 1] == details[i];
    lines
  }

  /** The per-check blocks, one after another in input order. */
  function Blocks(checks: seq<HealthCheck>, formatMs: real -> string): seq<string> {
    if |checks| == 0 then [] else CheckBlock(checks[0], formatMs) + Blocks(checks[1..], formatMs)
  }

  /** A line that opens a check's block: it starts with neither a space nor
      is it blank. */
  predicate IsTitleLine(line: string) {
    |line| > 0 && line[0] != ' '
  }

  function CountLines(lines: seq<string>, p: string -> bool): nat {
    if |lines| == 0 then 0 else (if p(lines[0]) then 1 else 0) + CountLines(lines[1..], p)
  }

  lemma {:induction false} CountLinesAppend(a: seq<string>, b: seq<string>, p: string -> bool)
    ensures CountLines(a + b, p) == CountLines(a, p) + CountLines(b, p)
    decreases |a|
  {
    if |a| > 0 {
      assert (a + b)[1..] == a[1..] + b;
      CountLinesAppend(a[1..], b, p);
    } else {
      assert a + b == b;
    }
  }

  /** Each block has exactly one title line and exactly one blank line. */
  lemma BlockShape(c: HealthCheck, formatMs: real -> string)
    ensures CountLines(CheckBlock(c, formatMs), IsTitleLine) == 1
    ensures CountLines(CheckBlock(c, formatMs), line => line == "") == 1
  {
    var lines := CheckBlock(c, formatMs);
    assert StatusEmoji(c.status)[0] != ' ';
    assert IsTitleLine(lines[0]) && lines[0] != "";
    var rest := lines[1..];
    forall i | 0 <= i < |rest|
      ensures !IsTitleLine(rest[i])
      ensures rest[i] == "" <==> i == |rest| - 1
    {
      assert rest[i] == lines[i + 1];
    }
    NoneCounted(rest[..|rest| - 1], IsTitleLine);
    NoneCounted(rest[..|rest| - 1], line => line == "");
    assert rest == rest[..|rest| - 1] + [""];
    CountLinesAppend(rest[..|rest| - 1], [""], IsTitleLine);
    CountLinesAppend(rest[..|rest| - 1], [""], line => line == "");
  }

  lemma {:induction false} NoneCounted(lines: seq<string>, p: string -> bool)
    requires forall i :: 0 <= i < |lines| ==> !p(lines[i])
    ensures CountLines(lines, p) == 0
    decreases |lines|
  {
    if |lines| > 0 {
      NoneCounted(lines[1..], p);
    }
  }

  /** Every check produces exactly one title line and exactly one blank line
      in the report body, so the body holds one block per check. */
  lemma {:induction false} OneBlockPerCheck(checks: seq<HealthCheck>, formatMs: real -> string)
    ensures CountLines(Blocks(checks, formatMs), IsTitleLine) == |checks|
    ensures CountLines(Blocks(checks, formatMs), line => line == "") == |checks|
    decreases |checks|
  {
    if |checks| > 0 {
      BlockShape(checks[0], formatMs);
      OneBlockPerCheck(checks[1..], formatMs);
      CountLinesAppend(CheckBlock(checks[0], formatMs), Blocks(checks[1..], formatMs), IsTitleLine);
      CountLinesAppend(CheckBlock(checks[0], formatMs), Blocks(checks[1..], formatMs), line => line == "");
    }
  }

  /** The report entries, before they are joined with newlines. */
  function HealthReportLines(checks: seq<HealthCheck>, formatMs: real -> string): (lines: seq<string>)
    ensures |lines| >= 2
    ensures lines[0] == ReportHeader
    ensures lines[1] == OverallLine(HealthyCount(checks), ConfiguredCount(checks))
    ensures lines[2..] == Blocks(checks, formatMs)
    ensures CountLines(lines[2..], IsTitleLine) == |checks|
    ensures HealthyCount(checks) <= ConfiguredCount(checks) <= |checks|
  {
    OneBlockPerCheck(checks, formatMs);
    HealthyWithinConfigured(checks);
    var head := [ReportHeader, OverallLine(HealthyCount(checks), ConfiguredCount(checks))];
    var lines := head + Blocks(checks, formatMs);
    assert lines[2..] == Blocks(checks, formatMs);
    lines
  }

  /** `format_health_report`. */
  function FormatHealthReport(checks: seq<HealthCheck>, formatMs: real -> string): (report: string)
    ensures StartsWith(report, ReportHeader + "\n")
  {
    var lines := HealthReportLines(checks, formatMs);
    JoinStartsWithFirst("\n", lines);
    Join("\n", lines)
  }

  /** An empty list of checks renders the header and a 0/0 tally only. */
  lemma EmptyHealthReport(formatMs: real -> string)
    ensures FormatHealthReport([], formatMs) == ReportHeader + "\n" + "Overall Status: 0/0 servers healthy\n"
  {
    var lines := HealthReportLines([], formatMs);
    assert Blocks([], formatMs) == [];
    assert |lines| == 2;
    assert lines[1..] == [lines[1]];
    assert Join("\n", lines) == lines[0] + "\n" + lines[1];
    assert HealthyCount([]) == 0 && ConfiguredCount([]) == 0;
    assert lines[1] == "Overall Status: 0/0 servers healthy\n" by {
      assert NatToString(0) == "0";
    }
  }

  // ---------------------------------------------------------------------
  // Recommendations

  const AllHealthy := "All configured MCP servers are healthy!"

  /** Whether a check calls for a remediation hint. */
  predicate NeedsAttention(c: HealthCheck) {
    || c.status == Degraded
    || c.status == Failed
    || (c.status == NotConfigured && (c.serverName == ExaServer || Contains(c.serverName, "notion")))
  }

  const ExaKeyHint := "Set EXA_API_KEY in .env to enable web search and crawling"
  const NotionTokenHint := "Set NOTION_TOKEN in .env to enable Notion integration"
  const NodeHint := "Check that Node.js is installed and npx command works"
  const NotionUrlHint := "Verify NOTION_MCP_URL is accessible and auth token is correct"

  /** The hint for a failed server that is not a Notion server. */
  function InvestigateHint(serverName: string): string {
    "Investigate " + serverName + " connection issues"
  }

  /** The hint for a degraded server. */
  function ReviewHint(serverName: string): string {
    "Review " + serverName + " configuration for potential issues"
  }

  /** The hint one check contributes, if any. The Notion set-up hint goes to
      every unconfigured server whose name contains "notion", the HTTP one
      included, although that server is enabled by NOTION_MCP_URL. */
  function Recommendation(c: HealthCheck): (hint: Option<string>)
    ensures hint.Some? <==> NeedsAttention(c)
    ensures hint.Some? ==> hint.value != AllHealthy
    ensures c.status == NotConfigured && c.serverName == ExaServer ==> hint == Some(ExaKeyHint)
    ensures c.status == NotConfigured && c.serverName != ExaServer && Contains(c.serverName, "notion")
            ==> hint == Some(NotionTokenHint)
    ensures c.status == Failed && Contains(c.serverName, "notion-stdio") ==> hint == Some(NodeHint)
    ensures c.status == Failed && !Contains(c.serverName, "notion-stdio") && Contains(c.serverName, "notion-http")
            ==> hint == Some(NotionUrlHint)
    ensures c.status == Failed && !Contains(c.serverName, "notion-stdio") && !Contains(c.serverName, "notion-http")
            ==> hint == Some(InvestigateHint(c.serverName))
    ensures c.status == Degraded ==> hint == Some(ReviewHint(c.serverName))
  {
    match c.status
    case NotConfigured =>
      if c.serverName == ExaServer then Some(ExaKeyHint)
      else if Contains(c.serverName, "notion") then Some(NotionTokenHint)
      else None
    case Failed =>
      if Contains(c.serverName, "notion-stdio") then Some(NodeHint)
      else if Contains(c.serverName, "notion-http") then Some(NotionUrlHint)
      else
        var hint := InvestigateHint(c.serverName);
        assert hint[0] != AllHealthy[0];
        Some(hint)
    case Degraded => Some(ReviewHint(c.serverName))
    case Healthy => None
  }

  /** The hints of all checks, in input order: each is the recommendation of
      some check that needs attention. */
  function Hints(checks: seq<HealthCheck>): (hints: seq<string>)
    ensures |hints| == CountAttention(checks)
    ensures forall i :: 0 <= i < |hints| ==> hints[i] != AllHealthy
    ensures forall i :: 0 <= i < |hints| ==>
              exists j :: 0 <= j < |checks| && Recommendation(checks[j]) == Some(hints[i])
  {
    if |checks| == 0 then []
    else
      var rest := Hints(checks[1..]);
      assert forall i :: 0 <= i < |rest| ==>
               exists j :: 0 <= j < |checks| && Recommendation(checks[j]) == Some(rest[i]) by {
        forall i | 0 <= i < |rest|
          ensures exists j :: 0 <= j < |checks| && Recommendation(checks[j]) == Some(rest[i])
        {
          var j :| 0 <= j < |checks[1..]| && Recommendation(checks[1..][j]) == Some(rest[i]);
          assert checks[1..][j] == checks[j + 1];
        }
      }
      match Recommendation(checks[0])
      case Some(hint) => [hint] + rest
      case None => rest
  }

  /** One check contributes exactly its own recommendation, if any; with
      HintsAppend this fixes the hints of every list. */
  lemma HintsSingle(c: HealthCheck)
    ensures Hints([c]) == if NeedsAttention(c) then [Recommendation(c).value] else []
  {
    assert [c][1..] == [];
  }

  /** How many checks need attention. */
  function CountAttention(checks: seq<HealthCheck>): nat {
    if |checks| == 0 then 0
    else (if NeedsAttention(checks[0]) then 1 else 0) + CountAttention(checks[1..])
  }

  /** Hints follow input order: they distribute over concatenation. */
  lemma {:induction false} HintsAppend(a: seq<HealthCheck>, b: seq<HealthCheck>)
    ensures Hints(a + b) == Hints(a) + Hints(b)
    decreases |a|
  {
    if |a| > 0 {
      assert (a + b)[1..] == a[1..] + b;
      HintsAppend(a[1..], b);
    } else {
      assert a + b == b;
    }
  }

  /** `get_mcp_recommendations`: the hints, or the single all-healthy line
      when there are none. */
  function GetMcpRecommendations(checks: seq<HealthCheck>): (recs: seq<string>)
    ensures |recs| >= 1
    ensures recs == [AllHealthy] <==> CountAttention(checks) == 0
    ensures CountAttention(checks) > 0 ==> |recs| == CountAttention(checks) && recs == Hints(checks)
  {
    var hints := Hints(checks);
    assert |hints| > 0 ==> hints[0] != AllHealthy;
    if |hints| == 0 then [AllHealthy] else hints
  }

  /** A list of healthy checks earns only the all-healthy line. */
  lemma {:induction false} AllHealthyRecommendation(checks: seq<HealthCheck>)
    requires forall i :: 0 <= i < |checks| ==> checks[i].status == Healthy
    ensures GetMcpRecommendations(checks) == [AllHealthy]
    decreases |checks|
  {
    if |checks| > 0 {
      AllHealthyRecommendation(checks[1..]);
    }
  }

  /** With no variable set, every probe reports not configured, the tally
      reads 0/0, and the three servers earn, in order, the Exa key hint and
      the Notion token hint twice: the HTTP server's name contains "notion". */
  lemma {:induction false} EmptyEnvironment(effects: ProbeEffects)
    ensures var checks := RunAllHealthChecks(Environment(None, None, None, None), effects);
            && (forall i :: 0 <= i < 3 ==> checks[i].status == NotConfigured)
            && HealthyCount(checks) == 0 && ConfiguredCount(checks) == 0
            && GetMcpRecommendations(checks) == [ExaKeyHint, NotionTokenHint, NotionTokenHint]
  {
    var checks := RunAllHealthChecks(Environment(None, None, None, None), effects);
    var tail1 := checks[1..];
    var tail2 := tail1[1..];
    assert tail2[1..] == [];
    assert HealthyCount(tail2) == 0 && ConfiguredCount(tail2) == 0;
    assert HealthyCount(tail1) == 0 && ConfiguredCount(tail1) == 0;
    assert StartsWith(tail2[0].serverName, "notion");
    assert StartsWith(tail1[0].serverName, "notion");
    assert Hints(tail2) == [NotionTokenHint];
    assert Hints(tail1) == [NotionTokenHint, NotionTokenHint];
    assert Recommendation(checks[0]) == Some(ExaKeyHint);
  }
}

=== FILE: patterns.dfy ===
/**
 The four regular expressions of the guardrails, each written out as the
 scan Python's `re` module performs:

 - `\[S\d+\]` (citation marker), counted with `re.findall`;
 - `\d{4}-\d{2}-\d{2}` (ISO date), counted with `re.findall`;
 - `^\d+\.` in MULTILINE mode (numbered source line), counted with `re.findall`;
 - `\d{4}-\d{2}-\d{2}\s+to\s+\d{4}-\d{2}-\d{2}` (time window), tested with
   `re.match`, which anchors at the start only.

 `findall` tries a match at each position from left to right and, after a
 match, resumes at its end, so matches never overlap. None of these patterns
 can match the empty string, and in each the greedy repetition is followed
 by a character the repeated class excludes, so backtracking never changes
 the outcome: the greedy run decides.
 */
module Patterns {
  import opened Text

  /** Length of the leading run of ASCII digits. */
  function DigitRun(s: string): (n: nat)
    ensures n <= |s|
    ensures forall i :: 0 <= i < n ==> IsDigit(s[i])
    ensures n < |s| ==> !IsDigit(s[n])
  {
    if |s| > 0 && IsDigit(s[0]) then 1 + DigitRun(s[1..]) else 0
  }

  /** Length of the leading run of white space (`\s+` when positive). */
  function SpaceRun(s: string): (n: nat)
    ensures n <= |s|
    ensures forall i :: 0 <= i < n ==> IsSpace(s[i])
    ensures n < |s| ==> !IsSpace(s[n])
  {
    if |s| > 0 && IsSpace(s[0]) then 1 + SpaceRun(s[1..]) else 0
  }

  // ---------------------------------------------------------------------
  // Citation markers `[S<digits>]`

  /** Length of the citation marker at the start of `s`, 0 when there is none. */
  function CitationLength(s: string): (n: nat)
    ensures n <= |s|
    ensures n > 0 ==> n >= 4 && s[0] == '[' && s[1] == 'S' && s[n - 1] == ']'
                      && forall i :: 2 <= i < n - 1 ==> IsDigit(s[i])
  {
    if |s| >= 2 && s[0] == '[' && s[1] == 'S' then
      var d := DigitRun(s[2..]);
      if d >= 1 && 2 + d < |s| && s[2 + d] == ']' then d + 3 else 0
    else 0
  }

  /** A run of digits ended by a non-digit is exactly what `DigitRun` reads. */
  lemma DigitRunExact(s: string, n: nat)
    requires n < |s|
    requires forall i :: 0 <= i < n ==> IsDigit(s[i])
    requires !IsDigit(s[n])
    ensures DigitRun(s) == n
  {
  }

  /** Conversely, a marker `[S<digits>]` at the start of `s` is found, with
      its full length. */
  lemma CitationFound(s: string, k: nat)
    requires 3 <= k < |s|
    requires s[0] == '[' && s[1] == 'S' && s[k] == ']'
    requires forall i :: 2 <= i < k ==> IsDigit(s[i])
    ensures CitationLength(s) == k + 1
  {
    var t := s[2..];
    forall i | 0 <= i < k - 2
      ensures IsDigit(t[i])
    {
      assert t[i] == s[i + 2];
    }
    assert t[k - 2] == s[k];
    DigitRunExact(t, k - 2);
  }

  /** `len(re.findall(r'\[S\d+\]', s))`. */
  function CountCitations(s: string): (n: nat)
    ensures 4 * n <= |s|
    decreases |s|
  {
    if |s| == 0 then 0
    else
      var n := CitationLength(s);
      if n > 0 then 1 + CountCitations(s[n..]) else CountCitations(s[1..])
  }

  /** The number of positions at which a citation marker starts, overlapping
      or not: the reference count the scan is compared with. */
  function CitationStarts(s: string): nat
    decreases |s|
  {
    if |s| == 0 then 0
    else (if CitationLength(s) > 0 then 1 else 0) + CitationStarts(s[1..])
  }

  /** Positions holding no `[` start no citation marker, so they can be skipped. */
  lemma {:induction false} CitationStartsSkip(s: string, i: nat, k: nat)
    requires i <= k <= |s|
    requires '[' !in s[i..k]
    ensures CitationStarts(s[i..]) == CitationStarts(s[k..])
    decreases k - i
  {
    if i < k {
      assert s[i] == s[i..k][0];
      assert CitationLength(s[i..]) == 0;
      assert s[i..][1..] == s[i + 1..];
      assert s[i + 1..k] == s[i..k][1..];
      CitationStartsSkip(s, i + 1, k);
    }
  }

  /** After its `[`, a citation marker holds only `S`, digits and `]`. */
  lemma NoBracketInCitation(s: string)
    requires CitationLength(s) > 0
    ensures '[' !in s[1..CitationLength(s)]
  {
    var n := CitationLength(s);
    var inner := s[1..n];
    forall i | 0 <= i < |inner|
      ensures inner[i] != '['
    {
      assert inner[i] == s[i + 1];
      if 2 <= i + 1 < n - 1 {
        assert IsDigit(s[i + 1]);
      }
    }
  }

  /** The start count jumps over a citation marker. */
  lemma CitationStep(s: string)
    requires CitationLength(s) > 0
    ensures CitationStarts(s) == 1 + CitationStarts(s[CitationLength(s)..])
  {
    NoBracketInCitation(s);
    CitationStartsSkip(s, 1, CitationLength(s));
  }

  /** Citation markers can never overlap, so the non-overlapping `findall`
      scan counts every position where a marker starts. */
  lemma {:induction false} CitationScanCountsAllStarts(s: string)
    ensures CountCitations(s) == CitationStarts(s)
    decreases |s|
  {
    if |s| > 0 {
      var n := CitationLength(s);
      if n > 0 {
        CitationStep(s);
        CitationScanCountsAllStarts(s[n..]);
      } else {
        CitationScanCountsAllStarts(s[1..]);
      }
    }
  }

  // ---------------------------------------------------------------------
  // ISO dates `dddd-dd-dd`

  /** A `\d{4}-\d{2}-\d{2}` match at the start of `s`. */
  predicate DateAt(s: string) {
    |s| >= 10
    && IsDigit(s[0]) && IsDigit(s[1]) && IsDigit(s[2]) && IsDigit(s[3]) && s[4] == '-'
    && IsDigit(s[5]) && IsDigit(s[6]) && s[7] == '-'
    && IsDigit(s[8]) && IsDigit(s[9])
  }

  /** `len(re.findall(r'\d{4}-\d{2}-\d{2}', s))`: after a date is found the
      scan resumes ten characters later. */
  function CountDates(s: string): (n: nat)
    ensures 10 * n <= |s|
    decreases |s|
  {
    if |s| == 0 then 0
    else if DateAt(s) then 1 + CountDates(s[10..])
    else CountDates(s[1..])
  }

  /** The number of positions at which a date starts, overlapping or not. */
  function DateStarts(s: string): nat
    decreases |s|
  {
    if |s| == 0 then 0
    else (if DateAt(s) then 1 else 0) + DateStarts(s[1..])
  }

  /** Dropping a prefix never adds date positions. */
  lemma {:induction false} DateStartsSuffix(s: string, k: nat)
    requires k <= |s|
    ensures DateStarts(s[k..]) <= DateStarts(s)
    decreases k
  {
    if k > 0 {
      assert s[1..][k - 1..] == s[k..];
      DateStartsSuffix(s[1..], k - 1);
    }
  }

  /** The `findall` scan never counts more dates than there are start
      positions; it may count fewer, because dates can overlap. */
  lemma {:induction false} DateScanAtMostStarts(s: string)
    ensures CountDates(s) <= DateStarts(s)
    decreases |s|
  {
    if |s| > 0 {
      if DateAt(s) {
        DateScanAtMostStarts(s[10..]);
        assert s[1..][9..] == s[10..];
        DateStartsSuffix(s[1..], 9);
      } else {
        DateScanAtMostStarts(s[1..]);
      }
    }
  }

  /** Fewer than ten characters hold no date. */
  lemma {:induction false} DateStartsShort(s: string)
    requires |s| < 10
    ensures DateStarts(s) == 0
    decreases |s|
  {
    if |s| > 0 {
      DateStartsShort(s[1..]);
    }
  }

  /** Positions where no date starts can be skipped when counting starts. */
  lemma {:induction false} DateStartsSkip(s: string, i: nat, k: nat)
    requires i <= k <= |s|
    requires forall j :: i <= j < k ==> !DateAt(s[j..])
    ensures DateStarts(s[i..]) == DateStarts(s[k..])
    decreases k - i
  {
    if i < k {
      assert s[i..][1..] == s[i + 1..];
      DateStartsSkip(s, i + 1, k);
    }
  }

  /** No other date starts within the first eight positions of a date: its
      dashes at positions 4 and 7 fall where the other would need digits. */
  lemma NoDateInsideDate(s: string)
    requires DateAt(s)
    ensures forall j :: 1 <= j < 8 ==> !DateAt(s[j..])
  {
    forall j | 1 <= j < 8
      ensures !DateAt(s[j..])
    {
      if j <= 4 {
        assert s[j..][4 - j] == s[4];
      } else {
        assert s[j..][7 - j] == s[7];
      }
    }
  }

  /** A second date starting at position 8 leaves no room for any other start
      before position 10: the dashes of the two dates are in the way. */
  lemma NoDateBetween(s: string)
    requires DateAt(s) && DateAt(s[8..])
    ensures forall j :: 1 <= j < 8 ==> !DateAt(s[j..])
    ensures !DateAt(s[9..])
  {
    NoDateInsideDate(s);
    assert s[9..][3] == s[8..][4];
  }

  /** Besides a date's own start, at most one more date starts within its ten
      characters: none in positions 1 to 7, and not both at 8 and at 9. */
  lemma OneStartWithinDate(s: string)
    requires DateAt(s)
    ensures DateStarts(s[1..]) <= 1 + DateStarts(s[10..])
  {
    NoDateInsideDate(s);
    DateStartsSkip(s, 1, 8);
    assert s[8..][1..] == s[9..];
    assert s[9..][1..] == s[10..];
    if DateAt(s[8..]) {
      assert s[9..][3] == s[8..][4];
    }
  }

  /** A date that is present is counted: each counted date accounts for at
      most two start positions, so the scan finds at least half of them. */
  lemma {:induction false} DateScanAtLeastHalfStarts(s: string)
    ensures DateStarts(s) <= 2 * CountDates(s)
    decreases |s|
  {
    if |s| > 0 {
      if DateAt(s) {
        OneStartWithinDate(s);
        DateScanAtLeastHalfStarts(s[10..]);
      } else {
        DateScanAtLeastHalfStarts(s[1..]);
      }
    }
  }

  /** When a second date starts on the last two digits of the first, both
      positions are date starts, but `findall` takes the first date, resumes
      ten characters later and never sees the second. */
  lemma OverlappingDatesCountedOnce(s: string)
    requires DateAt(s) && DateAt(s[8..])
    ensures CountDates(s) == 1 + CountDates(s[10..])
    ensures DateStarts(s) == 2 + DateStarts(s[10..])
  {
    NoDateBetween(s);
    DateStartsSkip(s, 1, 8);
    assert s[8..][1..] == s[9..];
    DateStartsSkip(s, 9, 10);
  }

  /** Eighteen characters holding two such dates: two start positions, one
      date reported. */
  lemma OverlapInEighteen(s: string)
    requires |s| == 18 && DateAt(s) && DateAt(s[8..])
    ensures CountDates(s) == 1
    ensures DateStarts(s) == 2
  {
    OverlappingDatesCountedOnce(s);
    DateStartsShort(s[10..]);
  }

  /** In "1234-56-7890-12-34" dates start at positions 0 and 8, and `findall`
      reports a single date. */
  lemma OverlapExample()
    ensures CountDates("1234-56-7890-12-34") == 1
    ensures DateStarts("1234-56-7890-12-34") == 2
  {
    var s := "1234-56-7890-12-34";
    assert DateAt(s);
    assert s[8..] == "7890-12-34";
    OverlapInEighteen(s);
  }

  // ---------------------------------------------------------------------
  // Numbered source lines `^\d+\.` (MULTILINE)

  /** Length of a `\d+\.` match at the start of `s`, 0 when there is none. */
  function NumberedLength(s: string): (n: nat)
    ensures n <= |s|
    ensures n > 0 ==> n >= 2 && s[n - 1] == '.' && forall i :: 0 <= i < n - 1 ==> IsDigit(s[i])
  {
    var d := DigitRun(s);
    if d >= 1 && d < |s| && s[d] == '.' then d + 1 else 0
  }

  /** Conversely, digits followed by a dot at the start of `s` are found,
      with their full length. */
  lemma NumberedFound(s: string, k: nat)
    requires 1 <= k < |s|
    requires forall i :: 0 <= i < k ==> IsDigit(s[i])
    requires s[k] == '.'
    ensures NumberedLength(s) == k + 1
  {
    DigitRunExact(s, k);
  }

  /** `len(re.findall(r'^\d+\.', s, re.MULTILINE))`. `lineStart` says whether
      `^` holds at the current position: at the start of the text and right
      after each newline. */
  function ScanNumbered(s: string, lineStart: bool): nat
    decreases |s|
  {
    if |s| == 0 then 0
    else
      var n := NumberedLength(s);
      if lineStart && n > 0 then 1 + ScanNumbered(s[n..], false)
      else ScanNumbered(s[1..], s[0] == '\n')
  }

  /** `len(re.findall(r'^\d+\.', output, re.MULTILINE))`. */
  function CountNumberedLines(s: string): (n: nat)
    ensures n == NumberedLineCount(s)
  {
    NumberedScanCountsLines(s);
    ScanNumbered(s, true)
  }

  /** Length of the first line of `s`, without its newline. */
  function LineLength(s: string): (n: nat)
    ensures n <= |s|
    ensures n < |s| ==> s[n] == '\n'
  {
    if |s| == 0 || s[0] == '\n' then 0 else 1 + LineLength(s[1..])
  }

  /** A line that starts with one or more digits and a dot. */
  predicate IsNumberedLine(line: string) {
    NumberedLength(line) > 0
  }

  /** The number of numbered lines among the lines of `s` (the parts of
      `s.split('\n')`), counted line by line: the reference count. */
  function NumberedLineCount(s: string): nat
    decreases |s|
  {
    var k := LineLength(s);
    (if IsNumberedLine(s[..k]) then 1 else 0) + (if k == |s| then 0 else NumberedLineCount(s[k + 1..]))
  }

  /** What the scan finds after the first line, with no line start pending:
      nothing when there is no newline, otherwise the count for the text
      after the first one. */
  function AfterFirstLine(s: string): nat
    decreases |s|
  {
    if |s| == 0 then 0
    else if s[0] == '\n' then ScanNumbered(s[1..], true)
    else AfterFirstLine(s[1..])
  }

  /** Away from a line start, the scan finds nothing until the next newline. */
  lemma {:induction false} ScanSkipsRestOfLine(t: string)
    ensures ScanNumbered(t, false) == AfterFirstLine(t)
    decreases |t|
  {
    if |t| > 0 && t[0] != '\n' {
      ScanSkipsRestOfLine(t[1..]);
    }
  }

  /** Inside the first line, what follows that line is the same from any
      position. */
  lemma {:induction false} ShiftAfterFirstLine(s: string, j: nat)
    requires j <= LineLength(s)
    ensures AfterFirstLine(s[j..]) == AfterFirstLine(s)
    decreases j
  {
    if j > 0 {
      assert s[1..][j - 1..] == s[j..];
      ShiftAfterFirstLine(s[1..], j - 1);
    }
  }

  /** What follows the first line is the scan of the text after its newline. */
  lemma AfterNewline(s: string)
    ensures AfterFirstLine(s) == (if LineLength(s) == |s| then 0 else ScanNumbered(s[LineLength(s) + 1..], true))
  {
    var k := LineLength(s);
    ShiftAfterFirstLine(s, k);
    if k < |s| {
      assert s[k..][1..] == s[k + 1..];
    }
  }

  /** Whether the first line is numbered depends only on that line. */
  lemma FirstLineNumbered(s: string)
    ensures NumberedLength(s[..LineLength(s)]) == NumberedLength(s)
  {
    var k := LineLength(s);
    var d := DigitRun(s);
    var p := s[..k];
    if d < k {
      assert !IsDigit(p[d]);
    }
    assert DigitRun(p) == d;
  }

  /** A prefix free of newlines lies within the first line. */
  lemma {:induction false} NoNewlineWithin(s: string, n: nat)
    requires n <= |s|
    requires forall i :: 0 <= i < n ==> s[i] != '\n'
    ensures n <= LineLength(s)
    decreases n
  {
    if n > 0 {
      NoNewlineWithin(s[1..], n - 1);
    }
  }

  /** At a line start the scan counts the first line, then resumes after it. */
  lemma ScanFirstLine(s: string)
    requires |s| > 0
    ensures ScanNumbered(s, true) == (if NumberedLength(s) > 0 then 1 else 0) + AfterFirstLine(s)
  {
    var n := NumberedLength(s);
    if n > 0 {
      NoNewlineWithin(s, n);
      ScanSkipsRestOfLine(s[n..]);
      ShiftAfterFirstLine(s, n);
    } else if s[0] != '\n' {
      ScanSkipsRestOfLine(s[1..]);
    }
  }

  /** At a line start the scan counts the first line exactly when it is a
      numbered line, then starts afresh after its newline. */
  lemma ScanLineStep(s: string)
    requires |s| > 0
    ensures var k := LineLength(s);
            ScanNumbered(s, true)
            == (if IsNumberedLine(s[..k]) then 1 else 0) + (if k == |s| then 0 else ScanNumbered(s[k + 1..], true))
  {
    ScanFirstLine(s);
    FirstLineNumbered(s);
    AfterNewline(s);
  }

  /** The MULTILINE `findall` scan counts exactly the numbered lines. */
  lemma {:induction false} NumberedScanCountsLines(s: string)
    ensures ScanNumbered(s, true) == NumberedLineCount(s)
    decreases |s|
  {
    if |s| > 0 {
      ScanLineStep(s);
      var k := LineLength(s);
      if k < |s| {
        NumberedScanCountsLines(s[k + 1..]);
      }
    }
  }

  // ---------------------------------------------------------------------
  // Time window `dddd-dd-dd\s+to\s+dddd-dd-dd` with `re.match`

  /** How `re.match(r'\d{4}-\d{2}-\d{2}\s+to\s+\d{4}-\d{2}-\d{2}', s)`
      proceeds: a date, the longest run of white space, "to", again the
      longest run of white space, and a date. The match is anchored at the
      start only: anything may follow it. */
  predicate GreedyTimeWindow(s: string) {
    DateAt(s)
    && var a := SpaceRun(s[10..]);
    a >= 1 && StartsWith(s[10 + a..], "to")
    && var b := SpaceRun(s[12 + a..]);
    b >= 1 && DateAt(s[12 + a + b..])
  }

  /** `s` splits as date, spaces, "to" at `i`, spaces, date at `j`, rest. */
  predicate WindowAt(s: string, i: int, j: int) {
    && DateAt(s)
    && 10 < i && i + 2 < j && j <= |s|
    && (forall k :: 10 <= k < i ==> IsSpace(s[k]))
    && s[i] == 't' && s[i + 1] == 'o'
    && (forall k :: i + 2 <= k < j ==> IsSpace(s[k]))
    && DateAt(s[j..])
  }

  /** The greedy reading agrees with the regex's meaning: a time window
      matches exactly when the text can be cut into a date, one or more
      spaces, "to", one or more spaces and a date, followed by anything. */
  lemma TimeWindowIffWindowAt(s: string)
    ensures GreedyTimeWindow(s) <==> exists i, j :: WindowAt(s, i, j)
  {
    if GreedyTimeWindow(s) {
      MatchGivesWindow(s);
    }
    if exists i, j :: WindowAt(s, i, j) {
      var i, j :| WindowAt(s, i, j);
      WindowGivesMatch(s, i, j);
    }
  }

  /** `re.match(r'\d{4}-\d{2}-\d{2}\s+to\s+\d{4}-\d{2}-\d{2}', s)` succeeds:
      the greedy matcher, which accepts exactly the texts that start with a
      date range. */
  function MatchesTimeWindow(s: string): (r: bool)
    ensures r <==> exists i, j :: WindowAt(s, i, j)
  {
    TimeWindowIffWindowAt(s);
    GreedyTimeWindow(s)
  }

  /** The greedy runs mark a cut. */
  lemma MatchGivesWindow(s: string)
    requires GreedyTimeWindow(s)
    ensures exists i, j :: WindowAt(s, i, j)
  {
    var a := SpaceRun(s[10..]);
    var i := 10 + a;
    var b := SpaceRun(s[i + 2..]);
    var j := i + 2 + b;
    var date := s[j..];
    assert DateAt(date);
    assert 10 < i && i + 2 < j && j <= |s|;
    forall k | 10 <= k < i
      ensures IsSpace(s[k])
    {
      assert s[k] == s[10..][k - 10];
    }
    assert s[i..][..2] == "to";
    assert s[i] == s[i..][0] && s[i + 1] == s[i..][1];
    forall k | i + 2 <= k < j
      ensures IsSpace(s[k])
    {
      assert s[k] == s[i + 2..][k - i - 2];
    }
    assert WindowAt(s, i, j);
  }

  /** Any cut is the one the greedy runs find: white space cannot run past
      the `t` of "to", nor past the first digit of the second date. */
  lemma WindowGivesMatch(s: string, i: int, j: int)
    requires WindowAt(s, i, j)
    ensures GreedyTimeWindow(s)
  {
    var a := SpaceRun(s[10..]);
    assert s[10..][i - 10] == 't';
    assert a == i - 10;
    assert StartsWith(s[10 + a..], "to") by {
      assert s[10 + a..][..2] == "to";
    }
    var b := SpaceRun(s[12 + a..]);
    assert s[12 + a..][j - i - 2] == s[j];
    assert b == j - i - 2;
    assert s[12 + a + b..] == s[j..];
  }

  /** Text after a date does not change it. */
  lemma DateAtExtend(s: string, t: string)
    requires DateAt(s)
    ensures DateAt(s + t)
  {
  }

  /** Text after a cut does not move it. */
  lemma WindowAtExtend(s: string, t: string, i: int, j: int)
    requires WindowAt(s, i, j)
    ensures WindowAt(s + t, i, j)
  {
    var u := s + t;
    DateAtExtend(s, t);
    assert u[j..] == s[j..] + t;
    DateAtExtend(s[j..], t);
    forall k | 10 <= k < j
      ensures u[k] == s[k]
    {
    }
  }

  /** Because `re.match` only anchors at the start, trailing text never
      turns a matching time window into a non-matching one. */
  lemma TimeWindowIgnoresSuffix(s: string, t: string)
    requires MatchesTimeWindow(s)
    ensures MatchesTimeWindow(s + t)
  {
    var i, j :| WindowAt(s, i, j);
    WindowAtExtend(s, t, i, j);
    assert MatchesTimeWindow(s + t);
  }
}

=== FILE: text.dfy ===
/**
 The string operations the validators and reports rely on: lower-casing,
 substring search, whitespace splitting, joining and integer rendering.

 Python's `str.lower()`, `str.split()` and `str(int)` are Unicode-aware; this
 module covers the ASCII part of each (see README).
 */
module Text {

  /** The ASCII characters for which Python's `str.isspace()` holds:
      space, tab, newline, vertical tab, form feed, carriage return and the
      four separators 0x1C..0x1F. `str.split()` and the regex class `\s`
      both use this set. */
  predicate IsSpace(c: char) {
    c == ' ' || c == '\t' || c == '\n' || c == '\r' || c == '\U{0B}' || c == '\U{0C}'
    || ('\U{1C}' <= c <= '\U{1F}')
  }

  /** The regex class `\d`, restricted to ASCII. */
  predicate IsDigit(c: char) {
    '0' <= c <= '9'
  }

  function LowerChar(c: char): char {
    if 'A' <= c <= 'Z' then (c as int + 32) as char else c
  }

  /** `str.lower()` on ASCII letters. */
  function Lower(s: string): (r: string)
    ensures |r| == |s|
    ensures forall i :: 0 <= i < |s| ==> r[i] == LowerChar(s[i])
  {
    seq(|s|, i requires 0 <= i < |s| => LowerChar(s[i]))
  }

  /** Lower-cases every element of a list of strings. */
  function LowerAll(ws: seq<string>): (r: seq<string>)
    ensures |r| == |ws|
    ensures forall i :: 0 <= i < |ws| ==> r[i] == Lower(ws[i])
  {
    seq(|ws|, i requires 0 <= i < |ws| => Lower(ws[i]))
  }

  /** Lower-casing maps white space to white space and nothing else to it. */
  lemma LowerCharKeepsSpace(c: char)
    ensures IsSpace(LowerChar(c)) <==> IsSpace(c)
  {
  }

  predicate StartsWith(s: string, prefix: string) {
    |prefix| <= |s| && s[..|prefix|] == prefix
  }

  /** Python's `sub in s`: some suffix of `s` starts with `sub`. */
  predicate Contains(s: string, sub: string)
    decreases |s|
  {
    StartsWith(s, sub) || (|s| > 0 && Contains(s[1..], sub))
  }

  /** `sub` occurs in `s` at position `i`. */
  predicate OccursAt(s: string, sub: string, i: int) {
    0 <= i <= |s| - |sub| && s[i..i + |sub|] == sub
  }

  /** `Contains` is substring search: it holds exactly when `sub` occurs at
      some position of `s`. */
  lemma {:induction false} ContainsIffOccurs(s: string, sub: string)
    ensures Contains(s, sub) <==> exists i :: OccursAt(s, sub, i)
    decreases |s|
  {
    if Contains(s, sub) {
      if StartsWith(s, sub) {
        assert OccursAt(s, sub, 0);
      } else {
        ContainsIffOccurs(s[1..], sub);
        var i :| OccursAt(s[1..], sub, i);
        assert s[1..][i..i + |sub|] == s[i + 1..i + 1 + |sub|];
        assert OccursAt(s, sub, i + 1);
      }
    }
    if exists i :: OccursAt(s, sub, i) {
      var i :| OccursAt(s, sub, i);
      if i > 0 {
        assert s[1..][i - 1..i - 1 + |sub|] == s[i..i + |sub|];
        assert OccursAt(s[1..], sub, i - 1);
        ContainsIffOccurs(s[1..], sub);
      } else {
        assert StartsWith(s, sub);
      }
    }
  }

  /** A token produced by `str.split()`: non-empty and free of white space. */
  predicate IsWord(w: string) {
    |w| > 0 && forall i :: 0 <= i < |w| ==> !IsSpace(w[i])
  }

  /** Length of the leading run of non-space characters. */
  function WordLength(s: string): (n: nat)
    ensures n <= |s|
    ensures forall i :: 0 <= i < n ==> !IsSpace(s[i])
    ensures n < |s| ==> IsSpace(s[n])
  {
    if |s| == 0 || IsSpace(s[0]) then 0 else 1 + WordLength(s[1..])
  }

  /** Python's `str.split()` with no separator: maximal runs of non-space
      characters, left to right, with empty strings dropped. */
  function Split(s: string): (words: seq<string>)
    ensures forall i :: 0 <= i < |words| ==> IsWord(words[i])
    ensures |words| <= |s|
    decreases |s|
  {
    if |s| == 0 then []
    else if IsSpace(s[0]) then Split(s[1..])
    else
      var n := WordLength(s);
      [s[..n]] + Split(s[n..])
  }

  /** `sep.join(xs)`. */
  function Join(sep: string, xs: seq<string>): string {
    if |xs| == 0 then ""
    else if |xs| == 1 then xs[0]
    else xs[0] + sep + Join(sep, xs[1..])
  }

  /** A string made only of white space splits into nothing. */
  lemma {:induction false} SplitBlank(s: string)
    requires forall i :: 0 <= i < |s| ==> IsSpace(s[i])
    ensures Split(s) == []
    decreases |s|
  {
    if |s| > 0 {
      SplitBlank(s[1..]);
    }
  }

  /** Splitting undoes joining with a single space, for lists of words. */
  lemma {:induction false} SplitJoinRoundTrip(ws: seq<string>)
    requires forall i :: 0 <= i < |ws| ==> IsWord(ws[i])
    ensures Split(Join(" ", ws)) == ws
    decreases |ws|
  {
    if |ws| == 1 {
      var w := ws[0];
      var n := WordLength(w);
      assert n == |w|;
      assert w[..n] == w;
      assert w[n..] == [];
    } else if |ws| > 1 {
      var w := ws[0];
      var j := Join(" ", ws[1..]);
      var s := w + " " + j;
      assert s == Join(" ", ws);
      var n := WordLength(s);
      assert s[|w|] == ' ';
      assert n == |w|;
      assert s[..n] == w;
      assert s[n..] == " " + j;
      assert (" " + j)[1..] == j;
      SplitJoinRoundTrip(ws[1..]);
      assert ws == [w] + ws[1..];
    }
  }

  /** Lower-casing before or after splitting gives the same keywords. */
  lemma {:induction false} SplitLower(s: string)
    ensures Split(Lower(s)) == LowerAll(Split(s))
    decreases |s|
  {
    var l := Lower(s);
    if |s| > 0 {
      LowerCharKeepsSpace(s[0]);
      if IsSpace(s[0]) {
        assert l[1..] == Lower(s[1..]);
        SplitLower(s[1..]);
      } else {
        var n := WordLength(s);
        var m := WordLength(l);
        if m < n {
          LowerCharKeepsSpace(s[m]);
        } else if n < m {
          LowerCharKeepsSpace(s[n]);
        }
        assert m == n;
        assert l[..n] == Lower(s[..n]);
        assert l[n..] == Lower(s[n..]);
        SplitLower(s[n..]);
        assert Split(l) == [Lower(s[..n])] + LowerAll(Split(s[n..]));
      }
    }
  }

  function DigitChar(d: nat): char
    requires d < 10
  {
    ('0' as int + d) as char
  }

  /** Reads a string of decimal digits back as a number. */
  function ParseDigits(s: string): int {
    if |s| == 0 then 0
    else ParseDigits(s[..|s| - 1]) * 10 + (s[|s| - 1] as int - '0' as int)
  }

  /** `str(n)` for a non-negative integer: canonical decimal digits that read
      back as `n`. */
  function NatToString(n: nat): (s: string)
    ensures |s| >= 1
    ensures forall i :: 0 <= i < |s| ==> IsDigit(s[i])
    ensures s[0] == '0' ==> n == 0 && |s| == 1
    ensures ParseDigits(s) == n
    decreases n
  {
    if n < 10 then [DigitChar(n)]
    else
      var prefix := NatToString(n / 10);
      var s := prefix + [DigitChar(n % 10)];
      assert s[..|s| - 1] == prefix;
      s
  }

  /** `str(i)` for any integer: a minus sign before the digits of `-i` when
      `i` is negative. */
  function IntToString(i: int): (s: string)
    ensures i >= 0 ==> s == NatToString(i)
    ensures i < 0 ==> |s| >= 2 && s[0] == '-' && ParseDigits(s[1..]) == -i
  {
    if i < 0 then
      var s := "-" + NatToString(-i);
      assert s[1..] == NatToString(-i);
      s
    else NatToString(i)
  }

  predicate EndsWith(s: string, suffix: string) {
    |suffix| <= |s| && s[|s| - |suffix|..] == suffix
  }

  /** With two or more parts, the joined text begins with the first part and
      a separator. */
  lemma JoinStartsWithFirst(sep: string, xs: seq<string>)
    requires |xs| >= 2
    ensures StartsWith(Join(sep, xs), xs[0] + sep)
  {
    var j := Join(sep, xs);
    assert j == xs[0] + sep + Join(sep, xs[1..]);
    assert j[..|xs[0] + sep|] == xs[0] + sep;
  }

  /** The joined text ends with the last part. */
  lemma {:induction false} JoinEndsWithLast(sep: string, xs: seq<string>)
    requires |xs| >= 1
    ensures EndsWith(Join(sep, xs), xs[|xs| - 1])
    decreases |xs|
  {
    if |xs| > 1 {
      JoinEndsWithLast(sep, xs[1..]);
      var rest := Join(sep, xs[1..]);
      var j := xs[0] + sep + rest;
      var last := xs[|xs| - 1];
      assert last == xs[1..][|xs[1..]| - 1];
      assert j[|j| - |last|..] == rest[|rest| - |last|..];
    }
  }
}

=== FILE: wrappers.dfy ===
/** Optional values and success-or-failure outcomes used throughout the model. */
module Wrappers {

  /** A value that may be absent (Python's `Optional[T]`). */
  datatype Option<+T> = None | Some(value: T)

  /** Either a returned value or a raised exception (its message, or a tag for its type). */
  datatype Result<+T, +E> = Success(value: T) | Failure(error: E)
}
